=== FILE: README.md ===
# resvg-node: options, install and download logic in Dafny

resvg-node is a Node.js binding around the resvg SVG renderer. Rendering,
font loading and PNG encoding happen in foreign libraries. The binding's own
logic is small, and this project models it:

- **Options resolver.** `render(svg, options)` decodes its options argument
  through serde into `JsOptions`, which embeds `JsFontOptions` and the
  adjacently tagged `FitToDef`. Every missing field takes its documented
  default, an unknown key is an error, and three fixed tables turn integer
  codes into shape, text and image rendering modes. The Rust file is present
  twice, in `native/src/options.rs` and its documented twin
  `src/options.rs`. The two have the same tables, messages and defaults, so
  one model (`Payload`, `Rendering`, `Fit`, `Options`) is cited against
  both.
- **Install helpers** (`Install`):
  - the libc family name;
  - the `{key}` template substitution applied to manifest names;
  - the name of a local build;
  - the filter of prebuilt binaries compatible with the host;
  - the search for an installed native module.
- **Build-output fold** (`Build`). `cargoBuild` reads cargo's JSON messages:
  it remembers the output file of the last artifact of this package and
  settles at the first `build-finished` message.
- **Download decisions** (`Download`). The `response` listener of
  `downloadFile` either follows a redirect, writes the file or rejects. The
  model covers that choice, the chain of requests it produces, and
  `download`'s choice of remote.

The options argument is modelled as an abstract JavaScript value: `null`,
a boolean, a number, a string, an array, or an object given as its ordered
entries. Numbers are split into integral ones, which neon_serde hands to
serde as integers, and the rest, which are carried opaquely. Decoders return
`Result` with serde's error kinds. The file system is reduced to the set of
paths that exist. A request is represented by the response it receives.
Cargo's output is a list of lines, each paired with the message `JSON.parse`
would make of it.

Files:

- `wrappers.dfy` holds `Option` and `Result`.
- `strings.dfy` holds decimal digits and prefix/suffix tests.
- `payload.dfy` holds the value model, the primitive decoders and the field
  collection of a `default, deny_unknown_fields` struct.
- `rendering.dfy` holds the code tables.
- `fit.dfy` holds `fitTo`.
- `options.dfy` holds the option records, their defaults, decoding,
  encoding and laws.
- `install.dfy`, `build.dfy` and `download.dfy` hold the TypeScript parts.

## Model

| member | source | states |
|---|---|---|
| Payload.DecodeU64 | native/src/options.rs:88 | a code is read as `u64`: accepted exactly for non-negative integral numbers, and the value read is the number given; a rejection quotes the value, as an invalid value for a negative integer and an invalid type otherwise |
| Payload.DecodeU32 | native/src/options.rs:13-14 | `width`/`height` content is accepted exactly for integral numbers in 0 .. 2^32-1, and the value read is the number given; a rejection quotes the value, as an invalid value for an out-of-range integer and an invalid type otherwise |
| Payload.DecodeOptionalString | native/src/options.rs:21 | `path` and `background` accept exactly `null`/`undefined` (giving `None`) or a string (giving that string) |
| Payload.DecodeStrings | native/src/options.rs:24 | `Vec<String>` accepts exactly arrays all of whose elements are strings, and re-encoding the result gives the array back |
| Payload.StringsRoundTrip | native/src/options.rs:24 | every list of strings written as an array decodes to itself |
| Payload.Collect | native/src/options.rs:19 | a struct's entries are accepted exactly when every value decodes and no key repeats. The result maps each key to its decoded value, and a failure is a duplicate key or the error of one entry |
| Rendering.ShapeFromCode | native/src/options.rs:84-97 | codes 0, 1, 2 are accepted and only those; the variant returned has that code in the typings; any other code is a custom error whose message names that code |
| Rendering.TextFromCode | native/src/options.rs:99-112 | codes 0, 1, 2 are accepted and only those; the variant returned has that code; any other code is a custom error naming it |
| Rendering.ImageFromCode | native/src/options.rs:114-126 | codes 0 and 1 are accepted and only those; the variant returned has that code; any other code is a custom error naming it |
| Rendering.DecodeShape | src/options.rs:183-196 | codes 0 .. 2 are accepted as the variant with that code; a code of 3 or more is rejected with a message naming it; any other value (negative, fractional, not a number) is rejected by the `u64` read with an error quoting the value |
| Rendering.DecodeText | src/options.rs:199-212 | codes 0 .. 2 are accepted as the variant with that code; a code of 3 or more is rejected with a message naming it; any other value (negative, fractional, not a number) is rejected by the `u64` read with an error quoting the value |
| Rendering.DecodeImage | src/options.rs:215-227 | codes 0 .. 1 are accepted as the variant with that code; a code of 2 or more is rejected with a message naming it; any other value (negative, fractional, not a number) is rejected by the `u64` read with an error quoting the value |
| Rendering.InvalidCodeMessageNamesCode | native/src/options.rs:92-95 | the rejection message `Invalid <setting> value: <n>. Expected ...` yields `n` when read back |
| Rendering.NegativeOrFractionalCodeQuoted | src/options.rs:187 | a negative code fails as an invalid `u64` value quoting the integer, a fractional one as an invalid type quoting the float, for all three settings |
| Rendering.PublishedCodesRoundTrip | lib/index.ts:32-47 | each code published by the typings decodes to the variant of the same name, and no two variants share a code |
| Fit.DecodeMode | native/src/options.rs:7-15 | the tag is accepted exactly for the strings original, width, height and zoom; any other string is an unknown variant |
| Fit.DecodeContent | native/src/options.rs:12-15 | the content matches the tag's variant: width and height accept exactly the integral numbers in 0 .. 2^32-1, zoom accepts exactly the numbers, original accepts exactly `null`; accepted content for width, height and zoom re-encodes to the value given |
| Fit.Finish | native/src/options.rs:12-15 | once the keys are read, a missing `value` is accepted only for original; for width, height and zoom it is a missing-field error naming `value`; the result has the tag's mode |
| Fit.DecodeFitTo | native/src/options.rs:3-16 | anything but an object is rejected, and an accepted object has only `mode`/`value` keys, none twice |
| Fit.ScanNeedsFreshKeys | native/src/options.rs:3-16 | the tagged-object walk succeeds only on entries whose keys are `mode` or `value`, none twice and none already consumed |
| Fit.StrayOrRepeatedKeyRejected | src/options.rs:14 | a `fitTo` object with a key other than `mode`/`value`, or a key twice, is rejected |
| Fit.DecodeFitToMatchesReference | native/src/options.rs:3-16 | on well-keyed objects the walk agrees with a key-order-independent reading: look up the tag, decode it, then the content or its absence |
| Fit.DecodeFitToAccepts | src/options.rs:9-26 | `fitTo` decodes to `f` exactly when the keys are well formed, the tag names `f`'s mode and the content (or its absence, for original only) decodes to `f` |
| Fit.MissingValueRejected | native/src/options.rs:13-15 | width, height and zoom without a `value` are rejected as a missing field |
| Fit.FitToRoundTrip | src/options.rs:9-26 | every fit policy survives writing as `{mode, value}` and reading back, with the tag before or after the content |
| Options.FontFieldNamed | native/src/options.rs:53-65 | a font key names a field exactly when it is the camelCase name of one of the ten fields |
| Options.OptionFieldNamed | native/src/options.rs:19-34 | an options key names a field exactly when it is the camelCase name of one of the nine fields |
| Options.DecodeLeaf | native/src/options.rs:20-33 | a field's value decodes to a value of that field's Rust type, and (outside `fitTo`) re-encoding it gives the payload value back |
| Options.DecodeFontField | native/src/options.rs:53 | an unknown font key is an `UnknownField` error naming it; an accepted value has its field's type |
| Options.DecodeOptionField | native/src/options.rs:19 | an unknown options key is an `UnknownField` error naming it; an accepted value has its field's type |
| Options.DecodeFont | native/src/options.rs:52-65 | anything but an object is rejected as a type error (acceptance and contents of objects: `Options.FontPayloadAccepted`, `Options.FontPayloadOverridesDefaults`) |
| Options.DecodeOptions | native/src/options.rs:18-34 | anything but an object is rejected as a type error (acceptance and contents of objects: `Options.PayloadAccepted`, `Options.PayloadOverridesDefaults`) |
| Options.DecodeOptionsArgument | native/src/neon_utils.rs:26-37 | an argument that is not passed, `null` or `undefined` gives the default options; any other value that is not an object is rejected |
| Options.FontPayloadAccepted | native/src/options.rs:52-65 | a font object is accepted exactly when no key repeats, every key names a field and every value has that field's type; any unknown key is rejected |
| Options.PayloadAccepted | native/src/options.rs:18-34 | an options object is accepted exactly when no key repeats, every key names a field and every value decodes; any unknown key is rejected |
| Options.FontPayloadOverridesDefaults | native/src/options.rs:67-82 | a decoded font object holds each supplied field's decoded value and the default in every field it does not supply |
| Options.PayloadOverridesDefaults | native/src/options.rs:36-50 | decoded options hold each supplied field's decoded value and the default in every field not supplied (inside `font` by the font lemma) |
| Options.FontRoundTrip | src/options.rs:110-163 | any font options written with every field decode to themselves |
| Options.OptionsRoundTrip | src/options.rs:28-92 | any render options written with every field, nested font options included, decode to themselves |
| Options.AbsentOptionsAreDefaults | native/src/options.rs:36-50 | no options argument, `null`/`undefined`, or `{}`, gives path None, dpi 96, languages ["en"], fitTo Original, background None, the usvg rendering defaults and the font defaults |
| Options.FontDefaultsAsDocumented | native/src/options.rs:67-82 | the font defaults are true, [], [], Times New Roman, 12, Times New Roman, Arial, Comic Sans MS, Impact, Courier New; every default family name is non-empty |
| Options.DefaultValuedPayload | src/options.rs:30 | supplying fields with their default values decodes to the same options as leaving them out |
| Options.SpelledOutDefaults | src/options.rs:94-108 | a payload spelling out every default decodes like the empty payload |
| Options.DefaultRenderingCodes | src/options.rs:58-80 | giving shape 2, text 1, image 0 decodes like giving nothing: the documented defaults GeometricPrecision, OptimizeLegibility, OptimizeQuality |
| Options.SnakeCaseKeysRejected | lib/index.ts:7-30 | any key with an underscore, such as the typings' `shape_rendering` or `load_system_fonts`, is rejected as an unknown field at both levels |
| Options.EmptyFamilyAccepted | native/src/options.rs:58-63 | an empty family name in the payload is accepted and kept: non-empty names hold for the defaults only |
| Install.OsFamily | lib/install.ts:15 | the family is "unknown" exactly when detect-libc reports none, otherwise the reported name |
| Install.TemplateValues | lib/install.ts:39 | the template table has exactly the keys name, version, platform, arch, family, holding the host's values and the family as `osFamily` gives it |
| Install.CloseAt | lib/install.ts:41 | a placeholder ends at the first `}` after its `{`, with no `}` or line terminator in between; when none is found, every `}` in the rest has a line terminator before it |
| Install.ResolveName | lib/install.ts:40-42 | resolving a manifest name against the host's template table leaves a name without `{` unchanged (placeholders: `Install.ResolvePlaceholder` and the rows below) |
| Install.ResolveLiteral | lib/install.ts:40-42 | text without `{` passes through substitution unchanged, whatever follows it |
| Install.NoPlaceholderUnchanged | lib/install.ts:40-42 | a string without `{` is returned unchanged |
| Install.ResolvePlaceholder | lib/install.ts:41 | `{key}` is replaced by the key's value, or by "undefined" for a key not in the table, and substitution resumes after the `}` |
| Install.UnclosedBraceKept | lib/install.ts:41 | a `{` that no `}` closes is kept as text, including one whose next `}` lies beyond a line terminator |
| Install.BraceAcrossLineKept | lib/install.ts:41 | `.` does not match a line terminator, so `{a` newline `b}` is left unchanged |
| Install.TwoPlaceholders | lib/install.ts:41 | matching is lazy: `{a}-{b}` is two substitutions, not one key `a}-{b` |
| Install.UnknownKeyIsUndefined | lib/install.ts:39-41 | a key outside the template table becomes the text "undefined" |
| Install.LocalBuildFilename | lib/install.ts:18 | the local build name starts with `name-version-` and ends with `-family.node` |
| Install.LocalBuildFilenameIsTemplate | lib/install.ts:18 | the local build name is the template `{name}-{version}-{arch}-{platform}-{family}.node` resolved against the host |
| Install.CompatibleRemotes | lib/install.ts:21-23 | an entry is returned exactly when its os and cpu match the host and it is not a musl build unless the host is musl; no musl build is returned on a non-musl host |
| Install.CompatibleRemotesAppend | lib/install.ts:22 | the filter keeps manifest order: it distributes over concatenation |
| Install.FirstCompatible | lib/install.ts:21-23 | the first compatible remote is the first manifest entry that is compatible |
| Install.Candidates | lib/install.ts:26-29 | the candidates are the local build first, then the resolved compatible remotes in manifest order, all in the install directory |
| Install.FirstExisting | lib/install.ts:30-36 | the result is the first path in the list that exists; the "not installed" error comes exactly when none exists |
| Install.FindInstalledModule | lib/install.ts:25-37 | the result is the first candidate that exists and the local build wins; the "not installed" error comes exactly when no candidate exists |
| Build.Messages | lib/build.ts:23-25 | at most one message per line |
| Build.MessagesFromJsonLines | lib/build.ts:24 | every message is the parse of a line that starts with `{` and ends with `}` |
| Build.OneLine | lib/build.ts:24 | a single line yields its parse exactly when it starts with `{` and ends with `}`, and nothing otherwise |
| Build.MessagesAppend | lib/build.ts:23-25 | messages keep the order of the lines: the messages of two runs of lines are those of the first followed by those of the second |
| Build.AllJsonLines | lib/build.ts:23-25 | when every line starts with `{` and ends with `}`, the messages are the lines' parses, one per line, in order |
| Build.OtherLinesIgnored | lib/build.ts:24 | inserting a line that is not a JSON object anywhere leaves the messages unchanged |
| Build.Step | lib/build.ts:26-38 | a settled build stays settled; a message that is neither a matching artifact nor `build-finished` leaves the state unchanged |
| Build.Run | lib/build.ts:26-38 | once settled, no further message changes the outcome |
| Build.RunningHoldsLastOutput | lib/build.ts:27-28 | before any `build-finished`, the build is running and `outputFile` is the first file of the last matching artifact, defined from the end of the stream |
| Build.FirstFinishDecides | lib/build.ts:30-36 | the first `build-finished` decides the outcome: it resolves with the last matching artifact's file before it (possibly unset) or rejects with "Build failed."; later messages do not matter |
| Build.CargoBuild | lib/build.ts:15-43 | over the lines cargo prints, a run without `build-finished` is still pending, holding the output file of the last matching artifact |
| Build.CargoBuildDecides | lib/build.ts:23-38 | the first line carrying `build-finished` settles `cargoBuild`: resolved with the last matching artifact's file printed before it, or rejected with "Build failed."; later lines do not matter |
| Build.NoFinishNoOutcome | lib/build.ts:26-38 | without a `build-finished` message the promise never settles |
| Download.RejectMessage | lib/download.ts:70 | the rejection message is the status message exactly when that is present and non-empty, otherwise "Error downloading binary."; it is never empty |
| Download.ListenerAsWritten | lib/download.ts:55-71 | as written, a redirect throws exactly when more than 5 locations are recorded ("Too many redirects.") or its location is recorded ("Redirect loop detected."), and is followed otherwise; any other status 200-399 writes the file and the rest reject with the status message |
| Download.Listener | lib/download.ts:55-71 | a redirect (status strictly between 300 and 400 with a location) is followed exactly when at most 5 locations are recorded and its location is new. Otherwise it is refused for the hop limit first, then for the loop. Any other status 200-399 writes the file, and the rest reject |
| Download.ListenersAgreeExceptThrow | lib/download.ts:56-57 | the corrected listener agrees with the listener as written except where the latter throws, where it rejects with the same message |
| Download.StatusBoundaries | lib/download.ts:63-71 | status 300 exactly and a 3xx without location write the file; a missing status, status 0 and a 404 without a message reject |
| Download.SeventhRedirectRefused | lib/download.ts:56 | with six locations recorded any further redirect is refused with "Too many redirects.", even to a new location |
| Download.RedirectLoopRefused | lib/download.ts:57 | a redirect back to a recorded location is refused with "Redirect loop detected." |
| Download.Chase | lib/download.ts:55-62 | the recorded list only grows, by at most one per response, never holds a duplicate and never exceeds six; the corrected chain never escapes |
| Download.ChaseRecordsLocations | lib/download.ts:58 | each recorded location is the location of the redirect that answered that hop |
| Download.FollowRedirects | lib/download.ts:55-61 | a download from scratch records at most six distinct locations and never escapes the listener; given seven or more responses it has ended, by writing the file or by failing |
| Download.FreshRedirectsFollowed | lib/download.ts:55-61 | up to six redirects to new locations are all followed and recorded in order, and the next response decides the outcome |
| Download.SeventhRedirectEscapes | lib/download.ts:56 | seven redirects to fresh locations: as written the guard's exception leaves the listener, corrected the download fails with "Too many redirects." |
| Download.PlanDownload | lib/download.ts:82-92 | with no compatible remote, `download` fails with "No compatable pre-builds were found."; otherwise it fetches the first compatible manifest entry from the resolved host into the install directory |
| Download.DownloadIsACandidate | lib/download.ts:89 | the file a download writes is one of the paths `findInstalledModule` looks for |

## Left out

- `native/src/lib.rs`: `render` and `parse_color` call usvg, resvg, svgtypes and the PNG encoder, which are foreign. Only the decoding of their options argument (line 25) is modelled.
- `native/src/fonts.rs`: calls into fontdb plus logging, with no logic of its own.
- `native/src/neon_utils.rs`: neon_serde marshalling is abstracted into the `Value` model. Its rule that an absent, `null` or `undefined` argument gives the defaults is `Options.DecodeOptionsArgument`.
- `lib/download.ts` `ProgressTracker`: clock and floating-point arithmetic.
- HTTP requests, streams and timeouts, the file system, and the `URL` resolution of relative redirect locations are all left out. A location is recorded and compared as the header's text, which is what the guard compares.
- `lib/build.ts`: spawning cargo, readline, `JSON.parse`, and copying the output file. `JSON.parse` throwing on a line such as `{x}`, which starts with `{` and ends with `}` but is not JSON, is also not modelled.
- `lib/prebuild.ts`: CLI dispatch through `process.exit` and console output.
- `lib/index.ts` and `typings/detect-libc.d.ts` are type declarations. They are used only for the published codes and the snake_case keys (`lib/index.ts`) and for the three possible family values (`typings/detect-libc.d.ts`).
- Payload.DecodeError: serde's errors are kept as their kind, the value found (serde's `Unexpected`) and what was expected. The text their `Display` produces, such as "invalid value: integer `-1`, expected u64", is not modelled; a float is quoted by its opaque representation.
- Payload.Number: `dpi`, `defaultFontSize` and the zoom factor are carried as opaque values. No f64/f32 arithmetic or rounding is modelled. neon_serde hands a number whose truncation equals itself to serde as an i64; that test holds for the infinities too, which reach serde as a saturated i64. The model keeps only finite integral numbers as integers, so neither saturation nor the infinities are modelled.
- Options.DecodeOptions: an array given where a struct is expected is rejected as a type error. serde's derived visitor would read it positionally. JavaScript callers pass objects, and the positional form is not modelled. The same holds for `Options.DecodeFont`.
- Fit.DecodeFitTo: serde's adjacently tagged visitor also accepts the two-element array `[mode, value]`. The model rejects every non-object as a type error; the array form is not modelled.
- Options.DecodeLeaf: the round trip is stated for every field except `fitTo`. There, decoding forgets key order and an explicit `null` for `original`, so `Fit.FitToRoundTrip` states the round trip in the other direction.
- Fit.DecodeFitTo: an unknown key inside `fitTo` is reported as `UnknownField`. serde's adjacently tagged visitor reports it as an invalid-value error, so only the rejection, not the error kind, is modelled.
- Install.TemplateValues: the table is a plain map. Keys such as `constructor` or `__proto__`, which an object literal inherits from its prototype, are not modelled.
- Install.JoinPath: `path.join` normalisation (repeated separators, `..`) is reduced to joining with `/`. The install directory, which the source derives from its own location and the manifest, is a parameter.
- Font family names: the documented defaults are all non-empty, but no check rejects an empty name that a caller supplies. The model states non-emptiness of the defaults only (`Options.FontDefaultsAsDocumented`) and shows an empty name being accepted (`Options.EmptyFamilyAccepted`).
- The two options files are one model. Their tables, messages and defaults are identical text, so a lemma that they agree would compare a definition with itself.

## Findings

| source | as written | input that shows it | evidently intended | confidence | as-written member | corrected member |
|---|---|---|---|---|---|---|
| lib/download.ts:56-57 | The hop-limit and loop guards `throw` inside the `response` event listener, which runs after the promise executor has returned. The exception leaves the listener instead of rejecting the download's promise, which then never settles. | Seven consecutive 302 responses with fresh locations. The seventh arrives with six locations recorded. A redirect back to a recorded location hits the loop guard the same way. | The download is rejected with "Too many redirects." or "Redirect loop detected.", like the other failures in the same listener. | medium; not executed | Download.SeventhRedirectEscapes | Download.Listener |

=== FILE: build.dfy ===
/** The part of `cargoBuild` in `lib/build.ts` that reads cargo's JSON
    messages: a line filter, then a fold over the messages that remembers
    the output file of the last artifact of this package and settles the
    build at the first `build-finished` message. */
module Build {
  import opened Wrappers
  import opened Strings

  datatype Target = Target(name: string)

  /** A cargo message, as far as the handler looks at it. */
  datatype Message =
    | CompilerArtifact(packageId: string, target: Option<Target>, filenames: seq<string>)
    | BuildFinished(success: bool)
    | OtherMessage

  /** One line of cargo's standard output and the message `JSON.parse`
      makes of it when the line is handed to the parser. */
  datatype Line = Line(text: string, parsed: Message)

  /** The lines handed to the parser: those that start with `{` and end
      with `}`. */
  predicate IsJsonLine(text: string) {
    StartsWith(text, "{") && EndsWith(text, "}")
  }

  /** The messages of a run, in order. */
  function Messages(lines: seq<Line>): (ms: seq<Message>)
    ensures |ms| <= |lines|
  {
    if lines == [] then []
    else if IsJsonLine(lines[0].text) then [lines[0].parsed] + Messages(lines[1..])
    else Messages(lines[1..])
  }

  /** Every message is the parse of a line that starts with `{` and ends
      with `}`. */
  lemma {:induction false} MessagesFromJsonLines(lines: seq<Line>)
    ensures forall m :: m in Messages(lines) ==> exists l :: l in lines && IsJsonLine(l.text) && l.parsed == m
    decreases |lines|
  {
    if lines != [] {
      MessagesFromJsonLines(lines[1..]);
      forall m | m in Messages(lines)
        ensures exists l :: l in lines && IsJsonLine(l.text) && l.parsed == m
      {
        assert Messages(lines) == (if IsJsonLine(lines[0].text) then [lines[0].parsed] else []) + Messages(lines[1..]);
        if IsJsonLine(lines[0].text) && m == lines[0].parsed {
          assert lines[0] in lines;
        } else {
          assert m in Messages(lines[1..]);
          var l :| l in lines[1..] && IsJsonLine(l.text) && l.parsed == m;
          assert l in lines;
        }
      }
    }
  }

  /** Lines that are not JSON objects do not change the messages. */
  lemma {:induction false} OtherLinesIgnored(a: seq<Line>, l: Line, b: seq<Line>)
    requires !IsJsonLine(l.text)
    ensures Messages(a + [l] + b) == Messages(a + b)
    decreases |a|
  {
    if a == [] {
      assert a + [l] + b == [l] + b;
      assert ([l] + b)[1..] == b;
      assert a + b == b;
    } else {
      assert (a + [l] + b)[0] == a[0] && (a + [l] + b)[1..] == a[1..] + [l] + b;
      assert (a + b)[0] == a[0] && (a + b)[1..] == a[1..] + b;
      OtherLinesIgnored(a[1..], l, b);
    }
  }

  /** The filter keeps the order of the lines: the messages of two runs of
      lines are the messages of the first followed by those of the
      second. */
  lemma {:induction false} MessagesAppend(a: seq<Line>, b: seq<Line>)
    ensures Messages(a + b) == Messages(a) + Messages(b)
    decreases |a|
  {
    if a == [] {
      assert a + b == b;
    } else {
      assert (a + b)[0] == a[0] && (a + b)[1..] == a[1..] + b;
      MessagesAppend(a[1..], b);
    }
  }

  /** A single line yields its message exactly when it starts with `{` and
      ends with `}`. */
  lemma OneLine(l: Line)
    ensures IsJsonLine(l.text) ==> Messages([l]) == [l.parsed]
    ensures !IsJsonLine(l.text) ==> Messages([l]) == []
  {
    assert [l][1..] == [];
  }

  /** When every line is a JSON object, the messages are the lines' parsed
      messages, one per line and in order. */
  lemma {:induction false} AllJsonLines(lines: seq<Line>)
    requires forall i :: 0 <= i < |lines| ==> IsJsonLine(lines[i].text)
    ensures |Messages(lines)| == |lines|
    ensures forall i :: 0 <= i < |lines| ==> Messages(lines)[i] == lines[i].parsed
    decreases |lines|
  {
    if lines != [] {
      AllJsonLines(lines[1..]);
      assert Messages(lines) == [lines[0].parsed] + Messages(lines[1..]);
      forall i | 0 < i < |lines| ensures Messages(lines)[i] == lines[i].parsed {
        assert lines[1..][i - 1] == lines[i];
      }
    }
  }

  /** An artifact of the package being built: it has a target, and its
      package id starts with the package name or its target carries the
      name. */
  predicate Matches(m: Message, package: string) {
    m.CompilerArtifact? && m.target.Some? &&
    (StartsWith(m.packageId, package) || m.target.value.name == package)
  }

  /** `filenames[0]`, undefined for an empty list. */
  function FirstFilename(m: Message): Option<string>
    requires m.CompilerArtifact?
  {
    if |m.filenames| > 0 then Some(m.filenames[0]) else None
  }

  /** The promise of `cargoBuild` and the `outputFile` variable while the
      build runs. */
  datatype BuildState =
    | Running(outputFile: Option<string>)
    | Resolved(output: Option<string>)
    | Rejected(message: string)

  const BuildFailed := "Build failed."

  /** The `json` handler. Once the promise is settled a later message
      cannot change its outcome. */
  function Step(s: BuildState, m: Message, package: string): (r: BuildState)
    ensures !s.Running? ==> r == s
    ensures s.Running? && !Matches(m, package) && !m.BuildFinished? ==> r == s
  {
    match s
    case Running(out) =>
      if Matches(m, package) then Running(FirstFilename(m))
      else if m.BuildFinished? then
        if m.success then Resolved(out) else Rejected(BuildFailed)
      else s
    case _ => s
  }

  /** The handler applied to each message in turn. */
  function Run(ms: seq<Message>, s: BuildState, package: string): (r: BuildState)
    ensures !s.Running? ==> r == s
    decreases |ms|
  {
    if ms == [] then s else Run(ms[1..], Step(s, ms[0], package), package)
  }

  /** `cargoBuild` from the lines cargo prints, before any message the
      state is `Running` with `outputFile` unset. */
  function CargoBuild(lines: seq<Line>, package: string): (r: BuildState)
    ensures NoFinish(Messages(lines)) ==> r == Running(LastOutput(Messages(lines), package))
  {
    var r := Run(Messages(lines), Running(None), package);
    if NoFinish(Messages(lines)) then (RunningHoldsLastOutput(Messages(lines), package); r) else r
  }

  lemma {:induction false} RunSnoc(ms: seq<Message>, m: Message, s: BuildState, package: string)
    ensures Run(ms + [m], s, package) == Step(Run(ms, s, package), m, package)
    decreases |ms|
  {
    if ms == [] {
      assert ms + [m] == [m];
      assert [m][1..] == [];
    } else {
      assert (ms + [m])[0] == ms[0];
      assert (ms + [m])[1..] == ms[1..] + [m];
      RunSnoc(ms[1..], m, Step(s, ms[0], package), package);
    }
  }

  /** The output of the last matching artifact, looked for from the end:
      an independent account of what `outputFile` holds. */
  function LastOutput(ms: seq<Message>, package: string): Option<string>
    decreases |ms|
  {
    if ms == [] then None
    else if Matches(ms[|ms| - 1], package) then FirstFilename(ms[|ms| - 1])
    else LastOutput(ms[..|ms| - 1], package)
  }

  predicate NoFinish(ms: seq<Message>) {
    forall i :: 0 <= i < |ms| ==> !ms[i].BuildFinished?
  }

  /** Before any `build-finished`, the build is running and `outputFile`
      holds the first file of the last matching artifact. */
  lemma {:induction false} RunningHoldsLastOutput(ms: seq<Message>, package: string)
    requires NoFinish(ms)
    ensures Run(ms, Running(None), package) == Running(LastOutput(ms, package))
    decreases |ms|
  {
    if ms != [] {
      var init := ms[..|ms| - 1];
      var m := ms[|ms| - 1];
      assert ms == init + [m];
      RunningHoldsLastOutput(init, package);
      RunSnoc(init, m, Running(None), package);
    }
  }

  /** The first `build-finished` fixes the outcome: success resolves with
      the file of the last matching artifact before it (unset if there was
      none), failure rejects with "Build failed.", and nothing after it
      matters. */
  lemma FirstFinishDecides(before: seq<Message>, success: bool, after: seq<Message>, package: string)
    requires NoFinish(before)
    ensures Run(before + [BuildFinished(success)] + after, Running(None), package) ==
            if success then Resolved(LastOutput(before, package)) else Rejected(BuildFailed)
  {
    RunningHoldsLastOutput(before, package);
    RunSnoc(before, BuildFinished(success), Running(None), package);
    RunAppend(before + [BuildFinished(success)], after, Running(None), package);
  }

  lemma {:induction false} RunAppend(a: seq<Message>, b: seq<Message>, s: BuildState, package: string)
    ensures Run(a + b, s, package) == Run(b, Run(a, s, package), package)
    decreases |a|
  {
    if a == [] {
      assert a + b == b;
    } else {
      assert (a + b)[0] == a[0];
      assert (a + b)[1..] == a[1..] + b;
      RunAppend(a[1..], b, Step(s, a[0], package), package);
    }
  }

  /** `cargoBuild` over the lines cargo prints: the first line carrying a
      `build-finished` message decides the promise, with the output file of
      the last matching artifact printed before it; lines after it do not
      matter. */
  lemma CargoBuildDecides(before: seq<Line>, l: Line, after: seq<Line>, package: string)
    requires NoFinish(Messages(before))
    requires IsJsonLine(l.text) && l.parsed.BuildFinished?
    ensures CargoBuild(before + [l] + after, package) ==
            if l.parsed.success then Resolved(LastOutput(Messages(before), package)) else Rejected(BuildFailed)
  {
    MessagesAppend(before + [l], after);
    MessagesAppend(before, [l]);
    OneLine(l);
    assert Messages(before + [l] + after) == Messages(before) + [BuildFinished(l.parsed.success)] + Messages(after);
    FirstFinishDecides(Messages(before), l.parsed.success, Messages(after), package);
  }

  /** Without a `build-finished` message the promise never settles. */
  lemma NoFinishNoOutcome(ms: seq<Message>, package: string)
    requires NoFinish(ms)
    ensures Run(ms, Running(None), package).Running?
  {
    RunningHoldsLastOutput(ms, package);
  }
}

=== FILE: download.dfy ===
/** The decisions `downloadFile` and `download` in `lib/download.ts` take:
    how a response is handled given the redirects already followed, the
    chain of requests that results, and which prebuilt binary is fetched
    from where. The HTTP requests, streams and file system are not
    modelled; a request is represented by the response it receives. */
module Download {
  import opened Wrappers
  import opened Install

  /** What the handler reads from a response; `None` stands for an absent
      status code, location header or status message. */
  datatype Response = Response(statusCode: Option<int>, location: Option<string>, statusMessage: Option<string>)

  /** The redirect branch: a status strictly between 300 and 400 and a
      non-empty location header. */
  predicate IsRedirect(r: Response) {
    r.statusCode.Some? && 300 < r.statusCode.value < 400 && r.location.Some? && r.location.value != ""
  }

  /** The branch that writes the body to the destination file. */
  predicate IsWritten(r: Response) {
    r.statusCode.Some? && 200 <= r.statusCode.value < 400
  }

  const TooManyRedirects := "Too many redirects."
  const RedirectLoop := "Redirect loop detected."
  const DownloadFailed := "Error downloading binary."

  /** The number of recorded redirects beyond which another one is
      refused. */
  const RecordLimit := 5

  /** `response.statusMessage || "Error downloading binary."`. */
  function RejectMessage(r: Response): (m: string)
    ensures m != ""
    ensures r.statusMessage.Some? && r.statusMessage.value != "" ==> m == r.statusMessage.value
    ensures r.statusMessage.None? || r.statusMessage.value == "" ==> m == DownloadFailed
  {
    if r.statusMessage.Some? && r.statusMessage.value != "" then r.statusMessage.value else DownloadFailed
  }

  /** What the `response` listener does: follow a redirect, write the file,
      reject the promise, or throw out of the listener. */
  datatype Action = Follow(location: string) | WriteFile | Reject(message: string) | Throw(message: string)

  /** The listener as written: the two redirect guards throw. */
  function ListenerAsWritten(r: Response, redirects: seq<string>): (a: Action)
    ensures a.Throw? <==> IsRedirect(r) && (|redirects| > RecordLimit || r.location.value in redirects)
    ensures a.Throw? ==> a.message == (if |redirects| > RecordLimit then TooManyRedirects else RedirectLoop)
    ensures a.Follow? <==> IsRedirect(r) && |redirects| <= RecordLimit && r.location.value !in redirects
    ensures a.Follow? ==> a.location == r.location.value
    ensures a == WriteFile <==> !IsRedirect(r) && IsWritten(r)
    ensures a.Reject? <==> !IsRedirect(r) && !IsWritten(r)
    ensures a.Reject? ==> a.message == RejectMessage(r)
  {
    if IsRedirect(r) then
      if |redirects| > RecordLimit then Throw(TooManyRedirects)
      else if r.location.value in redirects then Throw(RedirectLoop)
      else Follow(r.location.value)
    else if IsWritten(r) then WriteFile
    else Reject(RejectMessage(r))
  }

  /** The listener with the guards rejecting the download, as the
      surrounding promise intends. */
  function Listener(r: Response, redirects: seq<string>): (a: Action)
    ensures !a.Throw?
    ensures a.Follow? <==> IsRedirect(r) && |redirects| <= RecordLimit && r.location.value !in redirects
    ensures a.Follow? ==> a.location == r.location.value
    ensures a == WriteFile <==> !IsRedirect(r) && IsWritten(r)
    ensures IsRedirect(r) && |redirects| > RecordLimit ==> a == Reject(TooManyRedirects)
    ensures IsRedirect(r) && |redirects| <= RecordLimit && r.location.value in redirects ==> a == Reject(RedirectLoop)
    ensures !IsRedirect(r) && !IsWritten(r) ==> a == Reject(RejectMessage(r))
  {
    match ListenerAsWritten(r, redirects)
    case Throw(message) => Reject(message)
    case a => a
  }

  /** The two listeners differ only where the written one throws. */
  lemma ListenersAgreeExceptThrow(r: Response, redirects: seq<string>)
    ensures !ListenerAsWritten(r, redirects).Throw? ==> Listener(r, redirects) == ListenerAsWritten(r, redirects)
    ensures ListenerAsWritten(r, redirects).Throw? ==> Listener(r, redirects) == Reject(ListenerAsWritten(r, redirects).message)
  {
  }

  /** A status of exactly 300, and a 3xx without a location, take the
      write-to-file branch; a missing status or status 0 is rejected. */
  lemma StatusBoundaries(loc: Option<string>, message: Option<string>, redirects: seq<string>)
    ensures Listener(Response(Some(300), loc, message), redirects) == WriteFile
    ensures Listener(Response(Some(304), None, message), redirects) == WriteFile
    ensures Listener(Response(None, loc, message), redirects) == Reject(RejectMessage(Response(None, loc, message)))
    ensures Listener(Response(Some(0), loc, message), redirects) == Reject(RejectMessage(Response(Some(0), loc, message)))
    ensures Listener(Response(Some(404), loc, None), redirects) == Reject(DownloadFailed)
  {
  }

  predicate NoDuplicates(s: seq<string>) {
    forall i, j :: 0 <= i < j < |s| ==> s[i] != s[j]
  }

  /** How a chain of requests ends. `Escaped` is an exception thrown out of
      the listener: the promise of the download is neither resolved nor
      rejected by it. */
  datatype End = Unsettled | Written | Failed(message: string) | Escaped(message: string)

  /** The redirects recorded and how the chain ended. */
  datatype Chain = Chain(redirects: seq<string>, end: End)

  function Decide(r: Response, redirects: seq<string>, asWritten: bool): Action {
    if asWritten then ListenerAsWritten(r, redirects) else Listener(r, redirects)
  }

  /** The recursive `downloadFile`: request i receives `responses[i]`, and
      each followed redirect is recorded before the next request. */
  function Chase(responses: seq<Response>, redirects: seq<string>, asWritten: bool): (c: Chain)
    ensures |redirects| <= |c.redirects| <= |redirects| + |responses| && c.redirects[..|redirects|] == redirects
    ensures NoDuplicates(redirects) ==> NoDuplicates(c.redirects)
    ensures |redirects| <= RecordLimit + 1 ==> |c.redirects| <= RecordLimit + 1
    ensures !asWritten ==> !c.end.Escaped?
    ensures |redirects| <= RecordLimit + 1 && |redirects| + |responses| > RecordLimit + 1 ==> !c.end.Unsettled?
    decreases |responses|
  {
    if responses == [] then Chain(redirects, Unsettled)
    else
      match Decide(responses[0], redirects, asWritten)
      case Follow(l) =>
        var c := Chase(responses[1..], redirects + [l], asWritten);
        assert c.redirects[..|redirects|] == (redirects + [l])[..|redirects|];
        c
      case WriteFile => Chain(redirects, Written)
      case Reject(message) => Chain(redirects, Failed(message))
      case Throw(message) => Chain(redirects, Escaped(message))
  }

  /** Each recorded location is the location of the redirect answering
      that hop. */
  lemma {:induction false} ChaseRecordsLocations(responses: seq<Response>, redirects: seq<string>, asWritten: bool, k: nat)
    requires |redirects| <= k < |Chase(responses, redirects, asWritten).redirects|
    ensures k - |redirects| < |responses| && IsRedirect(responses[k - |redirects|])
    ensures Chase(responses, redirects, asWritten).redirects[k] == responses[k - |redirects|].location.value
    decreases |responses|
  {
    var c := Chase(responses, redirects, asWritten);
    var l := Decide(responses[0], redirects, asWritten).location;
    assert c == Chase(responses[1..], redirects + [l], asWritten);
    if k == |redirects| {
      assert c.redirects[..|redirects| + 1][k] == (redirects + [l])[k];
    } else {
      ChaseRecordsLocations(responses[1..], redirects + [l], asWritten, k);
      assert responses[1..][k - |redirects + [l]|] == responses[k - |redirects|];
    }
  }

  /** A download from scratch, with the corrected listener. */
  function FollowRedirects(responses: seq<Response>): (c: Chain)
    ensures NoDuplicates(c.redirects) && |c.redirects| <= RecordLimit + 1
    ensures !c.end.Escaped?
    ensures |responses| > RecordLimit + 1 ==> c.end.Written? || c.end.Failed?
  {
    Chase(responses, [], false)
  }

  /** Every redirect is recorded and followed: a chain of n redirects to
      new locations, n at most 6, ends with the n locations recorded, in
      order, and the final response decides the outcome. */
  lemma {:induction false} FreshRedirectsFollowed(responses: seq<Response>, last: Response, redirects: seq<string>, asWritten: bool)
    requires |redirects| + |responses| <= RecordLimit + 1
    requires forall i :: 0 <= i < |responses| ==> IsRedirect(responses[i])
    requires NoDuplicates(redirects + Locations(responses))
    ensures Chase(responses + [last], redirects, asWritten) ==
            Chase([last], redirects + Locations(responses), asWritten)
    decreases |responses|
  {
    if responses != [] {
      var l := responses[0].location.value;
      assert (redirects + Locations(responses))[|redirects|] == l;
      assert l !in redirects by {
        forall i | 0 <= i < |redirects| ensures redirects[i] != l {
          assert (redirects + Locations(responses))[i] == redirects[i];
        }
      }
      assert (responses + [last])[0] == responses[0];
      assert (responses + [last])[1..] == responses[1..] + [last];
      assert redirects + [l] + Locations(responses[1..]) == redirects + Locations(responses);
      FreshRedirectsFollowed(responses[1..], last, redirects + [l], asWritten);
    } else {
      assert responses + [last] == [last];
      assert Locations(responses) == [];
      assert redirects + [] == redirects;
    }
  }

  function Locations(responses: seq<Response>): (ls: seq<string>)
    requires forall i :: 0 <= i < |responses| ==> IsRedirect(responses[i])
    ensures |ls| == |responses|
    ensures forall i :: 0 <= i < |responses| ==> responses[i].location == Some(ls[i])
  {
    seq(|responses|, i requires 0 <= i < |responses| && IsRedirect(responses[i]) => responses[i].location.value)
  }

  /** The hop limit: with six redirects recorded, a seventh redirect is
      refused even when its location is new, and the limit is checked
      before the loop. */
  lemma SeventhRedirectRefused(redirects: seq<string>, r: Response)
    requires |redirects| == RecordLimit + 1 && IsRedirect(r)
    ensures Listener(r, redirects) == Reject(TooManyRedirects)
    ensures ListenerAsWritten(r, redirects) == Throw(TooManyRedirects)
  {
  }

  /** A redirect back to a recorded location is refused. */
  lemma RedirectLoopRefused(redirects: seq<string>, r: Response)
    requires |redirects| <= RecordLimit && IsRedirect(r) && r.location.value in redirects
    ensures Listener(r, redirects) == Reject(RedirectLoop)
    ensures ListenerAsWritten(r, redirects) == Throw(RedirectLoop)
  {
  }

  /** Seven redirects to new locations: as written the download's promise
      never settles, because the guard's exception leaves the listener;
      corrected, the download fails with "Too many redirects.". */
  lemma SeventhRedirectEscapes()
    ensures var rs := SevenRedirects();
            Chase(rs, [], true) == Chain(Locations(rs[..6]), Escaped(TooManyRedirects)) &&
            Chase(rs, [], false) == Chain(Locations(rs[..6]), Failed(TooManyRedirects))
  {
    var rs := SevenRedirects();
    var ls := Locations(rs[..6]);
    assert NoDuplicates([] + ls);
    assert rs == rs[..6] + [rs[6]];
    FreshRedirectsFollowed(rs[..6], rs[6], [], true);
    FreshRedirectsFollowed(rs[..6], rs[6], [], false);
    assert [] + ls == ls;
  }

  function SevenRedirects(): (rs: seq<Response>)
    ensures |rs| == 7 && forall i :: 0 <= i < 7 ==> IsRedirect(rs[i])
  {
    seq(7, i requires 0 <= i < 7 => Response(Some(302), Some(['/', ('0' as int + i) as char]), None))
  }

  // ---------------------------------------------------------------------
  // Choosing the remote.
  // ---------------------------------------------------------------------

  /** Where the binary is fetched from and where it is written. */
  datatype Plan = Plan(url: string, installPath: string)

  const NoCompatibleRemote := "No compatable pre-builds were found."

  /** `download`: the first compatible manifest entry, fetched from the
      manifest's host (both names resolved as templates) into the install
      directory. */
  function PlanDownload(files: seq<RemoteFile>, h: Host, remoteHost: string): (r: Result<Plan, string>)
    ensures r.Failure? <==> CompatibleRemotes(files, h) == []
    ensures r.Failure? ==> r.error == NoCompatibleRemote
    ensures r.Success? ==>
              exists i :: 0 <= i < |files| && Compatible(files[i], h) && (forall j :: 0 <= j < i ==> !Compatible(files[j], h)) &&
                          var name := ResolveName(files[i].name, h);
                          r.value == Plan(ResolveName(remoteHost, h) + "/" + name, JoinPath(h.installDir, name))
  {
    var remotes := CompatibleRemotes(files, h);
    if |remotes| == 0 then Failure(NoCompatibleRemote)
    else
      FirstCompatible(files, h);
      var name := ResolveName(remotes[0].name, h);
      Success(Plan(ResolveName(remoteHost, h) + "/" + name, JoinPath(h.installDir, name)))
  }

  /** The file a download writes is one `findInstalledModule` looks for:
      once it exists, the module is found. */
  lemma DownloadIsACandidate(files: seq<RemoteFile>, h: Host, remoteHost: string)
    requires PlanDownload(files, h, remoteHost).Success?
    ensures PlanDownload(files, h, remoteHost).value.installPath in Candidates(files, h)[1..]
  {
    var remotes := CompatibleRemotes(files, h);
    assert Candidates(files, h)[1..][0] == JoinPath(h.installDir, ResolveName(remotes[0].name, h));
  }
}

=== FILE: fit.dfy ===
/** `FitToDef`: the output size policy, decoded from an adjacently tagged
    object `{ mode, value }` with lower-case mode names and no other keys. */
module Fit {
  import opened Wrappers
  import opened Payload

  datatype FitTo = Original | Width(width: U32) | Height(height: U32) | Zoom(factor: Number)

  datatype FitMode = OriginalMode | WidthMode | HeightMode | ZoomMode

  const ModeKey := "mode"
  const ValueKey := "value"

  function ModeName(m: FitMode): string {
    match m
    case OriginalMode => "original"
    case WidthMode => "width"
    case HeightMode => "height"
    case ZoomMode => "zoom"
  }

  function ModeOf(f: FitTo): FitMode {
    match f
    case Original => OriginalMode
    case Width(_) => WidthMode
    case Height(_) => HeightMode
    case Zoom(_) => ZoomMode
  }

  /** The tag: a string naming one of the four variants. */
  function DecodeMode(v: Value): (r: Result<FitMode, DecodeError>)
    ensures r.Success? <==> v.Str? && v.s in {"original", "width", "height", "zoom"}
    ensures r.Success? ==> v == Str(ModeName(r.value))
    ensures v.Str? && r.Failure? ==> r.error == UnknownVariant(v.s)
  {
    match v
    case Str(s) =>
      if s == "original" then Success(OriginalMode)
      else if s == "width" then Success(WidthMode)
      else if s == "height" then Success(HeightMode)
      else if s == "zoom" then Success(ZoomMode)
      else Failure(UnknownVariant(s))
    case _ => Failure(InvalidType(UnexpectedOf(v), "variant identifier"))
  }

  /** The content for a known variant: nothing (`null`) for `original`, a
      `u32` for `width` and `height`, an `f32` for `zoom`. */
  function DecodeContent(m: FitMode, v: Value): (r: Result<FitTo, DecodeError>)
    ensures r.Success? ==> ModeOf(r.value) == m
    ensures r.Success? && m != OriginalMode ==> v == EncodeContent(r.value)
    ensures m == WidthMode || m == HeightMode ==> (r.Success? <==> v.Num? && v.num.Whole? && 0 <= v.num.n < 0x1_0000_0000)
    ensures m == OriginalMode ==> (r.Success? <==> v.Null?)
    ensures m == ZoomMode ==> (r.Success? <==> v.Num?)
  {
    match m
    case OriginalMode => if v.Null? then Success(Original) else Failure(InvalidType(UnexpectedOf(v), "unit variant"))
    case WidthMode => var w :- DecodeU32(v); Success(Width(w))
    case HeightMode => var h :- DecodeU32(v); Success(Height(h))
    case ZoomMode => var z :- DecodeFloat(v); Success(Zoom(z))
  }

  /** The result once all keys are seen: `value` may be absent only for
      `original`. */
  function Finish(m: FitMode, content: Option<Value>): (r: Result<FitTo, DecodeError>)
    ensures r.Success? ==> ModeOf(r.value) == m
    ensures content.None? ==> (r.Success? <==> m == OriginalMode)
    ensures content.None? && m != OriginalMode ==> r == Failure(MissingField(ValueKey))
  {
    match content
    case Some(c) => DecodeContent(m, c)
    case None => if m == OriginalMode then Success(Original) else Failure(MissingField(ValueKey))
  }

  /** The visitor's walk over the entries, with the tag and the content seen
      so far. Content seen before the tag is buffered and decoded once the
      tag arrives; a repeated key is a duplicate and any other key is
      rejected. */
  function Scan(es: seq<(string, Value)>, mode: Option<FitMode>, content: Option<Value>): Result<FitTo, DecodeError>
    decreases |es|
  {
    if |es| == 0 then
      match mode
      case None => Failure(MissingField(ModeKey))
      case Some(m) => Finish(m, content)
    else
      var (k, v) := es[0];
      if k == ModeKey then
        if mode.Some? then Failure(DuplicateField(ModeKey))
        else
          match DecodeMode(v)
          case Failure(e) => Failure(e)
          case Success(m) =>
            if content.Some? && DecodeContent(m, content.value).Failure? then DecodeContent(m, content.value)
            else Scan(es[1..], Some(m), content)
      else if k == ValueKey then
        if content.Some? then Failure(DuplicateField(ValueKey))
        else if mode.Some? && DecodeContent(mode.value, v).Failure? then DecodeContent(mode.value, v)
        else Scan(es[1..], mode, Some(v))
      else Failure(UnknownField(k))
  }

  /** Deserializes `FitToDef` from an object; only well-keyed objects are
      accepted. */
  function DecodeFitTo(v: Value): (r: Result<FitTo, DecodeError>)
    ensures !v.Obj? ==> r.Failure?
    ensures r.Success? ==> v.Obj? && WellKeyed(v.entries)
  {
    match v
    case Obj(es) =>
      var r := Scan(es, None, None);
      if r.Success? then (ScanNeedsFreshKeys(es, None, None); r) else r
    case _ => Failure(InvalidType(UnexpectedOf(v), "struct FitTo"))
  }

  function EncodeContent(f: FitTo): Value {
    match f
    case Original => Null
    case Width(w) => Num(Whole(w))
    case Height(h) => Num(Whole(h))
    case Zoom(z) => Num(z)
  }

  /** The adjacently tagged form of `f`: the tag, then the content unless the
      variant carries none. */
  function EncodeFitTo(f: FitTo): Value {
    if f.Original? then Obj([(ModeKey, Str("original"))])
    else Obj([(ModeKey, Str(ModeName(ModeOf(f)))), (ValueKey, EncodeContent(f))])
  }

  /** The first value recorded under `key`. */
  function Lookup(es: seq<(string, Value)>, key: string): (r: Option<Value>)
    ensures r.None? <==> key !in KeysOf(es)
    ensures r.Some? ==> exists i :: 0 <= i < |es| && es[i] == (key, r.value)
    decreases |es|
  {
    if |es| == 0 then None
    else if es[0].0 == key then Some(es[0].1)
    else
      assert KeysOf(es) == {es[0].0} + KeysOf(es[1..]);
      var r := Lookup(es[1..], key);
      assert r.Some? ==> exists i :: 0 <= i < |es[1..]| && es[1..][i] == (key, r.value);
      r
  }

  /** The entries mention no key besides `mode` and `value`, and none twice. */
  predicate WellKeyed(es: seq<(string, Value)>) {
    DistinctKeys(es) && forall i :: 0 <= i < |es| ==> es[i].0 == ModeKey || es[i].0 == ValueKey
  }

  /** Keys already consumed by the walk do not appear again. */
  predicate FreshFor(es: seq<(string, Value)>, mode: Option<FitMode>, content: Option<Value>) {
    WellKeyed(es) && (mode.Some? ==> ModeKey !in KeysOf(es)) && (content.Some? ==> ValueKey !in KeysOf(es))
  }

  lemma {:induction false} ScanNeedsFreshKeys(es: seq<(string, Value)>, mode: Option<FitMode>, content: Option<Value>)
    requires Scan(es, mode, content).Success?
    ensures FreshFor(es, mode, content)
    decreases |es|
  {
    if |es| > 0 {
      var (k, v) := es[0];
      assert k == ModeKey || k == ValueKey;
      if k == ModeKey {
        assert mode.None? && DecodeMode(v).Success?;
        ScanNeedsFreshKeys(es[1..], Some(DecodeMode(v).value), content);
      } else {
        ScanNeedsFreshKeys(es[1..], mode, Some(v));
      }
      assert KeysOf(es) == {k} + KeysOf(es[1..]);
      DistinctCons(es);
      forall i | 0 <= i < |es| ensures es[i].0 == ModeKey || es[i].0 == ValueKey {
        if i > 0 { assert es[i] == es[1..][i - 1]; }
      }
    }
  }

  /** `fitTo` is rejected when it has a key other than `mode` and `value`,
      or a key twice. */
  lemma StrayOrRepeatedKeyRejected(es: seq<(string, Value)>)
    requires !WellKeyed(es)
    ensures DecodeFitTo(Obj(es)).Failure?
  {
    if DecodeFitTo(Obj(es)).Success? {
      ScanNeedsFreshKeys(es, None, None);
    }
  }

  /** For well-keyed entries, the walk ends where the reference decoding
      says: it depends on whether a tag was present, on which mode it
      names, and on the content, but not on the order of the two keys. */
  function Reference(es: seq<(string, Value)>): Result<FitTo, DecodeError> {
    match Lookup(es, ModeKey)
    case None => Failure(MissingField(ModeKey))
    case Some(mv) =>
      match DecodeMode(mv)
      case Failure(e) => Failure(e)
      case Success(m) => Finish(m, Lookup(es, ValueKey))
  }

  lemma ThreeKeysRepeat(es: seq<(string, Value)>)
    ensures |es| > 2 && (forall i :: 0 <= i < |es| ==> es[i].0 == ModeKey || es[i].0 == ValueKey) ==>
              es[0].0 == es[1].0 || es[0].0 == es[2].0 || es[1].0 == es[2].0
  {
  }

  lemma WellKeyedIsShort(es: seq<(string, Value)>)
    requires WellKeyed(es)
    ensures |es| <= 2
    ensures |es| == 2 ==> es[0].0 != es[1].0
  {
    ThreeKeysRepeat(es);
  }

  lemma DecodeFitToMatchesReference(es: seq<(string, Value)>)
    requires WellKeyed(es)
    ensures DecodeFitTo(Obj(es)) == Reference(es)
  {
    WellKeyedIsShort(es);
    if |es| == 2 {
      var (k0, v0) := es[0];
      var (k1, v1) := es[1];
      var rest := es[1..];
      assert rest[1..] == [];
      assert rest[0] == (k1, v1);
      if k0 == ModeKey {
        assert k1 == ValueKey;
        assert Lookup(es, ModeKey) == Some(v0);
        assert Lookup(es, ValueKey) == Lookup(rest, ValueKey) == Some(v1);
        match DecodeMode(v0)
        case Failure(e) =>
        case Success(m) =>
          assert Scan(es, None, None) == Scan(rest, Some(m), None);
          if DecodeContent(m, v1).Success? {
            assert Scan(rest, Some(m), None) == Scan(rest[1..], Some(m), Some(v1));
          }
      } else {
        assert k0 == ValueKey && k1 == ModeKey;
        assert Lookup(es, ValueKey) == Some(v0);
        assert Lookup(es, ModeKey) == Lookup(rest, ModeKey) == Some(v1);
        assert Scan(es, None, None) == Scan(rest, None, Some(v0));
        match DecodeMode(v1)
        case Failure(e) =>
        case Success(m) =>
          if DecodeContent(m, v0).Success? {
            assert Scan(rest, None, Some(v0)) == Scan(rest[1..], Some(m), Some(v0));
          }
      }
    } else if |es| == 1 {
      var rest := es[1..];
      assert rest == [];
      assert Lookup(rest, ModeKey) == None && Lookup(rest, ValueKey) == None;
      var (k, v) := es[0];
      if k == ModeKey {
        assert Lookup(es, ModeKey) == Some(v);
        assert Lookup(es, ValueKey) == None;
        match DecodeMode(v)
        case Failure(e) =>
        case Success(m) => assert Scan(es, None, None) == Scan(rest, Some(m), None);
      } else {
        assert Lookup(es, ModeKey) == None;
        assert Scan(es, None, None) == Scan(rest, None, Some(v));
      }
    }
  }

  /** Decoding succeeds exactly for the four mode names, with a `u32` value
      for `width` and `height`, any number for `zoom`, and no value (or
      `null`) for `original`; a missing value for the other modes is an
      error. */
  lemma DecodeFitToAccepts(es: seq<(string, Value)>, f: FitTo)
    ensures DecodeFitTo(Obj(es)) == Success(f) <==>
              WellKeyed(es) && Lookup(es, ModeKey) == Some(Str(ModeName(ModeOf(f)))) &&
              Finish(ModeOf(f), Lookup(es, ValueKey)) == Success(f)
  {
    if DecodeFitTo(Obj(es)) == Success(f) {
      ScanNeedsFreshKeys(es, None, None);
    }
    if WellKeyed(es) {
      DecodeFitToMatchesReference(es);
    }
  }

  /** A `width`, `height` or `zoom` tag without a value is rejected. */
  lemma MissingValueRejected(m: FitMode)
    requires m != OriginalMode
    ensures DecodeFitTo(Obj([(ModeKey, Str(ModeName(m)))])) == Failure(MissingField(ValueKey))
  {
    var es := [(ModeKey, Str(ModeName(m)))];
    assert es[1..] == [];
    assert DecodeMode(Str(ModeName(m))) == Success(m);
    assert Scan(es, None, None) == Scan([], Some(m), None);
  }

  /** Every fit policy survives encoding and decoding, with the tag before
      the content or after it. */
  lemma FitToRoundTrip(f: FitTo)
    ensures DecodeFitTo(EncodeFitTo(f)) == Success(f)
    ensures !f.Original? ==>
              DecodeFitTo(Obj([(ValueKey, EncodeContent(f)), (ModeKey, Str(ModeName(ModeOf(f))))])) == Success(f)
  {
    TagFirstRoundTrip(f);
    if !f.Original? {
      TagLastRoundTrip(f);
    }
  }

  lemma TagFirstRoundTrip(f: FitTo)
    ensures DecodeFitTo(EncodeFitTo(f)) == Success(f)
  {
    var m := ModeOf(f);
    var es := EncodeFitTo(f).entries;
    PartsRoundTrip(f);
    assert es[0] == (ModeKey, Str(ModeName(m)));
    if f.Original? {
      assert es[1..] == [];
      assert Scan(es, None, None) == Scan([], Some(m), None);
    } else {
      assert es[1..][0] == (ValueKey, EncodeContent(f)) && es[1..][1..] == [];
      assert Scan(es, None, None) == Scan(es[1..], Some(m), None);
      assert Scan(es[1..], Some(m), None) == Scan([], Some(m), Some(EncodeContent(f)));
    }
  }

  lemma TagLastRoundTrip(f: FitTo)
    requires !f.Original?
    ensures DecodeFitTo(Obj([(ValueKey, EncodeContent(f)), (ModeKey, Str(ModeName(ModeOf(f))))])) == Success(f)
  {
    var m := ModeOf(f);
    var es := [(ValueKey, EncodeContent(f)), (ModeKey, Str(ModeName(m)))];
    PartsRoundTrip(f);
    assert es[1..][0] == (ModeKey, Str(ModeName(m))) && es[1..][1..] == [];
    assert Scan(es, None, None) == Scan(es[1..], None, Some(EncodeContent(f)));
    assert Scan(es[1..], None, Some(EncodeContent(f))) == Scan([], Some(m), Some(EncodeContent(f)));
  }

  /** The tag and the content of `f` each decode back. */
  lemma PartsRoundTrip(f: FitTo)
    ensures DecodeMode(Str(ModeName(ModeOf(f)))) == Success(ModeOf(f))
    ensures DecodeContent(ModeOf(f), EncodeContent(f)) == Success(f)
  {
  }
}

=== FILE: install.dfy ===
/** The install helpers of `lib/install.ts`: the libc family name, the
    `{key}` template substitution applied to manifest names, the file name
    of a local build, the filter of prebuilt binaries compatible with the
    host, and the search for an installed native module. */
module Install {
  import opened Wrappers
  import opened Strings

  /** What `detect-libc` reports: no family, glibc or musl. */
  datatype LibcFamily = NoFamily | Glibc | Musl

  /** The string `detect-libc` exports for a family. */
  function FamilyName(f: LibcFamily): string {
    match f
    case NoFamily => ""
    case Glibc => "glibc"
    case Musl => "musl"
  }

  /** The package and the host the installer runs on. `installDir` is the
      directory the native module is installed in, which the source derives
      from its own location and the manifest. */
  datatype Host = Host(
    name: string,
    version: string,
    platform: string,
    arch: string,
    family: LibcFamily,
    installDir: string)

  /** One prebuilt binary listed in the manifest; an absent `musl` flag is
      `false`. */
  datatype RemoteFile = RemoteFile(name: string, os: string, cpu: string, musl: bool)

  /** `osFamily`: the family name, or "unknown" when none was detected. */
  function OsFamily(f: LibcFamily): (r: string)
    ensures r == "unknown" <==> f == NoFamily
    ensures f != NoFamily ==> r == FamilyName(f)
    ensures r != ""
  {
    if FamilyName(f) != "" then FamilyName(f) else "unknown"
  }

  // ---------------------------------------------------------------------
  // Template substitution.
  // ---------------------------------------------------------------------

  /** The characters a JavaScript `.` does not match. */
  predicate IsLineTerminator(c: char) {
    c == '\n' || c == '\r' || c == '\U{2028}' || c == '\U{2029}'
  }

  /** Where the lazy `(.*?)}` that follows a `{` stops: the first `}` with
      no line terminator before it, if there is one. */
  function CloseAt(s: string): (r: Option<nat>)
    ensures r.Some? ==> r.value < |s| && s[r.value] == '}'
    ensures r.Some? ==> forall k :: 0 <= k < r.value ==> s[k] != '}' && !IsLineTerminator(s[k])
    ensures r.None? ==> forall k :: 0 <= k < |s| && s[k] == '}' ==> exists j :: 0 <= j < k && IsLineTerminator(s[j])
    decreases |s|
  {
    if s == [] then None
    else if s[0] == '}' then Some(0)
    else if IsLineTerminator(s[0]) then None
    else
      match CloseAt(s[1..])
      case None => None
      case Some(k) => Some(k + 1)
  }

  /** `templateValues[key]`: the value, or the text "undefined" that an
      absent key turns into. */
  function Lookup(values: map<string, string>, key: string): (r: string)
    ensures key in values ==> r == values[key]
    ensures key !in values ==> r == "undefined"
  {
    if key in values then values[key] else "undefined"
  }

  /** `value.replace(/{(.*?)}/g, (x, g) => templateValues[g])`: scanning
      from the left, each `{` that has a closing `}` on the same line starts
      a placeholder ending at the first such `}`, which is replaced by its
      key's value; the substituted text is not scanned again, and every
      character outside a placeholder is kept. */
  function Resolve(s: string, values: map<string, string>): string
    decreases |s|
  {
    if s == [] then []
    else if s[0] == '{' && CloseAt(s[1..]).Some? then
      var k := CloseAt(s[1..]).value;
      Lookup(values, s[1..k + 1]) + Resolve(s[k + 2..], values)
    else [s[0]] + Resolve(s[1..], values)
  }

  /** `templateValues`. */
  function TemplateValues(h: Host): (m: map<string, string>)
    ensures m.Keys == {"name", "version", "platform", "arch", "family"}
    ensures m["name"] == h.name && m["version"] == h.version
    ensures m["platform"] == h.platform && m["arch"] == h.arch
    ensures m["family"] == OsFamily(h.family)
  {
    map["name" := h.name, "version" := h.version, "platform" := h.platform,
        "arch" := h.arch, "family" := OsFamily(h.family)]
  }

  /** Text without a `{` passes through unchanged, whatever follows it. */
  lemma {:induction false} ResolveLiteral(a: string, b: string, values: map<string, string>)
    requires '{' !in a
    ensures Resolve(a + b, values) == a + Resolve(b, values)
    decreases |a|
  {
    if a != [] {
      var s := a + b;
      assert s[0] == a[0] && a[0] != '{';
      assert s[1..] == a[1..] + b;
      assert Resolve(s, values) == [s[0]] + Resolve(s[1..], values);
      ResolveLiteral(a[1..], b, values);
      assert a == [a[0]] + a[1..];
    } else {
      assert a + b == b;
    }
  }

  /** A string without a `{` is returned unchanged. */
  lemma NoPlaceholderUnchanged(s: string, values: map<string, string>)
    requires '{' !in s
    ensures Resolve(s, values) == s
  {
    ResolveLiteral(s, [], values);
    assert s + [] == s;
  }

  /** `{key}`. */
  function Placeholder(key: string): string {
    "{" + key + "}"
  }

  /** A key with no `}` and no line terminator, between braces, is replaced
      by its value (or "undefined"), and scanning resumes after the `}`. */
  lemma ResolvePlaceholder(key: string, rest: string, values: map<string, string>)
    requires PlainKey(key)
    ensures Resolve(Placeholder(key) + rest, values) == Lookup(values, key) + Resolve(rest, values)
  {
    var s := Placeholder(key) + rest;
    assert s[0] == '{';
    assert s[1..] == key + ("}" + rest);
    CloseOfKey(key, "}" + rest);
    assert CloseAt(s[1..]) == Some(|key|);
    assert s[1..|key| + 1] == key;
    assert s[|key| + 2..] == rest;
  }

  lemma {:induction false} CloseOfKey(key: string, tail: string)
    requires PlainKey(key)
    requires |tail| > 0 && tail[0] == '}'
    ensures CloseAt(key + tail) == Some(|key|)
    decreases |key|
  {
    if key == [] {
      assert key + tail == tail;
    } else {
      assert (key + tail)[1..] == key[1..] + tail;
      CloseOfKey(key[1..], tail);
    }
  }

  /** A `{` that no `}` closes on its line is kept as text. */
  lemma UnclosedBraceKept(rest: string, values: map<string, string>)
    requires CloseAt(rest).None?
    ensures Resolve("{" + rest, values) == "{" + Resolve(rest, values)
  {
    var s := "{" + rest;
    assert s[1..] == rest;
    assert s[0] == '{';
  }

  /** A `}` reached only across a line break closes nothing: `{a` newline
      `b}` comes back unchanged. */
  lemma BraceAcrossLineKept(values: map<string, string>)
    ensures Resolve("{a\nb}", values) == "{a\nb}"
  {
    var rest := "a\nb}";
    assert rest[1..] == "\nb}";
    assert CloseAt(rest) == CloseAt("\nb}");
    assert IsLineTerminator('\n');
    UnclosedBraceKept(rest, values);
    NoPlaceholderUnchanged(rest, values);
    assert "{a\nb}" == "{" + rest;
  }

  /** A key that may stand between braces: no `}` and no line terminator. */
  predicate PlainKey(key: string) {
    forall k :: 0 <= k < |key| ==> key[k] != '}' && !IsLineTerminator(key[k])
  }

  /** Matching is lazy: `{a}-{b}` is two placeholders, not one whose key is
      `a}-{b`. */
  lemma TwoPlaceholders(a: string, sep: string, b: string, values: map<string, string>)
    requires PlainKey(a) && PlainKey(b) && '{' !in sep
    ensures Resolve(Placeholder(a) + (sep + Placeholder(b)), values) == Lookup(values, a) + sep + Lookup(values, b)
  {
    var t := Placeholder(b);
    assert Resolve(t, values) == Lookup(values, b) by {
      ResolvePlaceholder(b, [], values);
      assert t + [] == t;
    }
    assert Resolve(sep + t, values) == sep + Resolve(t, values) by {
      ResolveLiteral(sep, t, values);
    }
    assert Resolve(Placeholder(a) + (sep + t), values) == Lookup(values, a) + Resolve(sep + t, values) by {
      ResolvePlaceholder(a, sep + t, values);
    }
  }

  /** A placeholder whose key is not in the table becomes "undefined". */
  lemma UnknownKeyIsUndefined(h: Host, key: string, rest: string)
    requires PlainKey(key) && key !in TemplateValues(h)
    ensures Resolve(Placeholder(key) + rest, TemplateValues(h)) == "undefined" + Resolve(rest, TemplateValues(h))
  {
    ResolvePlaceholder(key, rest, TemplateValues(h));
  }

  // ---------------------------------------------------------------------
  // File names and the compatibility filter.
  // ---------------------------------------------------------------------

  /** `localBuildFilename`: `name-version-arch-platform-family.node`. */
  function LocalBuildFilename(h: Host): (r: string)
    ensures StartsWith(r, h.name + ("-" + (h.version + "-"))) && EndsWith(r, "-" + (OsFamily(h.family) + ".node"))
  {
    var suffix := "-" + (OsFamily(h.family) + ".node");
    var t := h.arch + ("-" + (h.platform + suffix));
    StartsWithAppend("-", t);
    StartsWithBoth(h.version, "-" + t, "-");
    StartsWithBoth("-", h.version + ("-" + t), h.version + "-");
    StartsWithBoth(h.name, "-" + (h.version + ("-" + t)), "-" + (h.version + "-"));
    EndsWithAppend(h.platform, suffix);
    EndsWithExtend("-", h.platform + suffix, suffix);
    EndsWithExtend(h.arch, "-" + (h.platform + suffix), suffix);
    EndsWithExtend("-", t, suffix);
    EndsWithExtend(h.version, "-" + t, suffix);
    EndsWithExtend("-", h.version + ("-" + t), suffix);
    EndsWithExtend(h.name, "-" + (h.version + ("-" + t)), suffix);
    h.name + ("-" + (h.version + ("-" + t)))
  }

  /** `{name}-{version}-{arch}-{platform}-{family}.node`: the local build's
      name written as a `{key}` template. */
  const LocalBuildTemplate: string :=
    Placeholder("name") + ("-" + (Placeholder("version") + ("-" + (Placeholder("arch") + ("-" +
    (Placeholder("platform") + ("-" + (Placeholder("family") + ".node"))))))))

  /** A placeholder followed by `-` and more template text. */
  lemma ResolveSegment(v: map<string, string>, key: string, tail: string)
    requires PlainKey(key)
    ensures Resolve(Placeholder(key) + ("-" + tail), v) == Lookup(v, key) + ("-" + Resolve(tail, v))
  {
    ResolvePlaceholder(key, "-" + tail, v);
    ResolveLiteral("-", tail, v);
  }

  /** The local build's name is its `{key}` template resolved against the
      host. */
  lemma LocalBuildFilenameIsTemplate(h: Host)
    ensures LocalBuildFilename(h) == Resolve(LocalBuildTemplate, TemplateValues(h))
  {
    ResolveLocalBuildTemplate(h);
  }

  /** Five placeholders joined by `-`, followed by a literal suffix. */
  lemma ResolveFiveSegments(v: map<string, string>, a: string, b: string, c: string, d: string, e: string, suffix: string)
    requires PlainKey(a) && PlainKey(b) && PlainKey(c) && PlainKey(d) && PlainKey(e)
    requires '{' !in suffix
    ensures Resolve(Placeholder(a) + ("-" + (Placeholder(b) + ("-" + (Placeholder(c) + ("-" +
              (Placeholder(d) + ("-" + (Placeholder(e) + suffix)))))))), v) ==
            Lookup(v, a) + ("-" + (Lookup(v, b) + ("-" + (Lookup(v, c) + ("-" +
              (Lookup(v, d) + ("-" + (Lookup(v, e) + suffix))))))))
  {
    var t5 := Placeholder(e) + suffix;
    var t4 := Placeholder(d) + ("-" + t5);
    var t3 := Placeholder(c) + ("-" + t4);
    var t2 := Placeholder(b) + ("-" + t3);
    ResolvePlaceholder(e, suffix, v);
    NoPlaceholderUnchanged(suffix, v);
    ResolveSegment(v, d, t5);
    ResolveSegment(v, c, t4);
    ResolveSegment(v, b, t3);
    ResolveSegment(v, a, t2);
  }

  lemma ResolveLocalBuildTemplate(h: Host)
    ensures Resolve(LocalBuildTemplate, TemplateValues(h)) ==
            h.name + ("-" + (h.version + ("-" + (h.arch + ("-" + (h.platform + ("-" + (OsFamily(h.family) + ".node"))))))))
  {
    ResolveFiveSegments(TemplateValues(h), "name", "version", "arch", "platform", "family", ".node");
  }

  /** The condition of `getCompatableRemotes`. */
  predicate Compatible(file: RemoteFile, h: Host) {
    file.os == h.platform && file.cpu == h.arch && (!file.musl || h.family == Musl)
  }

  /** `getCompatableRemotes`: the manifest entries built for this platform
      and architecture, musl builds only on a musl host, in manifest order. */
  function CompatibleRemotes(files: seq<RemoteFile>, h: Host): (r: seq<RemoteFile>)
    ensures forall f :: f in r <==> f in files && Compatible(f, h)
    ensures |r| <= |files|
    ensures h.family != Musl ==> forall i :: 0 <= i < |r| ==> !r[i].musl
  {
    if files == [] then []
    else if Compatible(files[0], h) then [files[0]] + CompatibleRemotes(files[1..], h)
    else CompatibleRemotes(files[1..], h)
  }

  /** The filter keeps manifest order: it distributes over concatenation. */
  lemma {:induction false} CompatibleRemotesAppend(a: seq<RemoteFile>, b: seq<RemoteFile>, h: Host)
    ensures CompatibleRemotes(a + b, h) == CompatibleRemotes(a, h) + CompatibleRemotes(b, h)
    decreases |a|
  {
    if a == [] {
      assert a + b == b;
    } else {
      assert (a + b)[0] == a[0];
      assert (a + b)[1..] == a[1..] + b;
      CompatibleRemotesAppend(a[1..], b, h);
    }
  }

  /** The first compatible remote is the first manifest entry that is
      compatible. */
  lemma {:induction false} FirstCompatible(files: seq<RemoteFile>, h: Host)
    requires CompatibleRemotes(files, h) != []
    ensures exists i :: 0 <= i < |files| && files[i] == CompatibleRemotes(files, h)[0] &&
                        forall j :: 0 <= j < i ==> !Compatible(files[j], h)
    decreases |files|
  {
    if !Compatible(files[0], h) {
      FirstCompatible(files[1..], h);
      var i :| 0 <= i < |files[1..]| && files[1..][i] == CompatibleRemotes(files[1..], h)[0] &&
               forall j :: 0 <= j < i ==> !Compatible(files[1..][j], h);
      assert files[i + 1] == CompatibleRemotes(files, h)[0];
      forall j | 0 <= j < i + 1 ensures !Compatible(files[j], h) {
        if j > 0 { assert files[j] == files[1..][j - 1]; }
      }
    }
  }

  /** `resolve`: a manifest name with the host's values substituted for its
      placeholders. A name without a `{` is used as it is. */
  function ResolveName(value: string, h: Host): (r: string)
    ensures '{' !in value ==> r == value
  {
    var r := Resolve(value, TemplateValues(h));
    if '{' !in value then (NoPlaceholderUnchanged(value, TemplateValues(h)); r) else r
  }

  // ---------------------------------------------------------------------
  // Finding the installed module.
  // ---------------------------------------------------------------------

  /** `path.join(dir, file)` for a plain file name. */
  function JoinPath(dir: string, file: string): string {
    dir + "/" + file
  }

  function LocalBuildPath(h: Host): string {
    JoinPath(h.installDir, LocalBuildFilename(h))
  }

  /** The resolved names of the given remotes, as paths in the install
      directory. */
  function RemotePaths(remotes: seq<RemoteFile>, h: Host): (ps: seq<string>)
    ensures |ps| == |remotes|
    ensures forall i :: 0 <= i < |remotes| ==> ps[i] == JoinPath(h.installDir, ResolveName(remotes[i].name, h))
  {
    seq(|remotes|, i requires 0 <= i < |remotes| => JoinPath(h.installDir, ResolveName(remotes[i].name, h)))
  }

  /** The paths `findInstalledModule` looks at: the local build first, then
      each compatible remote in manifest order. */
  function Candidates(files: seq<RemoteFile>, h: Host): (cs: seq<string>)
    ensures |cs| == 1 + |CompatibleRemotes(files, h)|
    ensures cs[0] == LocalBuildPath(h)
    ensures cs[1..] == RemotePaths(CompatibleRemotes(files, h), h)
  {
    [LocalBuildPath(h)] + RemotePaths(CompatibleRemotes(files, h), h)
  }

  const NotInstalled := "[resvg-node] The native module is not installed."

  /** The first of `paths` that exists, or the "not installed" error when
      none does. */
  method FirstExisting(paths: seq<string>, existing: set<string>) returns (r: Result<string, string>)
    ensures r.Success? <==> exists i :: 0 <= i < |paths| && paths[i] in existing
    ensures r.Failure? ==> r.error == NotInstalled
    ensures r.Success? ==> exists i :: 0 <= i < |paths| && paths[i] == r.value && r.value in existing &&
                                      forall j :: 0 <= j < i ==> paths[j] !in existing
    ensures |paths| > 0 && paths[0] in existing ==> r == Success(paths[0])
  {
    var i := 0;
    while i < |paths|
      invariant 0 <= i <= |paths|
      invariant forall j :: 0 <= j < i ==> paths[j] !in existing
    {
      if paths[i] in existing {
        return Success(paths[i]);
      }
      i := i + 1;
    }
    return Failure(NotInstalled);
  }

  /** `findInstalledModule`, with the file system reduced to the set of
      paths that exist: the first candidate that exists, or the error when
      none does. */
  method FindInstalledModule(files: seq<RemoteFile>, h: Host, existing: set<string>) returns (r: Result<string, string>)
    ensures r.Success? <==> exists i :: 0 <= i < |Candidates(files, h)| && Candidates(files, h)[i] in existing
    ensures r.Failure? ==> r.error == NotInstalled
    ensures r.Success? ==> exists i :: 0 <= i < |Candidates(files, h)| && Candidates(files, h)[i] == r.value &&
                                      r.value in existing &&
                                      forall j :: 0 <= j < i ==> Candidates(files, h)[j] !in existing
    ensures LocalBuildPath(h) in existing ==> r == Success(LocalBuildPath(h))
  {
    r := FirstExisting(Candidates(files, h), existing);
  }
}

=== FILE: options.dfy ===
/** `JsOptions` and `JsFontOptions`: the render options and the font options
    they embed, their defaults, and their decoding from a payload with
    camelCase keys, where every missing field takes its default and every
    unknown key is rejected. */
module Options {
  import opened Wrappers
  import opened Payload
  import opened Rendering
  import opened Fit

  datatype FontOptions = FontOptions(
    loadSystemFonts: bool,
    fontFiles: seq<string>,
    fontDirs: seq<string>,
    defaultFontFamily: string,
    defaultFontSize: Number,
    serifFamily: string,
    sansSerifFamily: string,
    cursiveFamily: string,
    fantasyFamily: string,
    monospaceFamily: string)

  datatype RenderOptions = RenderOptions(
    path: Option<string>,
    font: FontOptions,
    dpi: Number,
    languages: seq<string>,
    shapeRendering: ShapeRendering,
    textRendering: TextRendering,
    imageRendering: ImageRendering,
    fitTo: FitTo,
    background: Option<string>)

  /** `JsFontOptions::default()`. */
  const FontDefaults: FontOptions := FontOptions(
    loadSystemFonts := true,
    fontFiles := [],
    fontDirs := [],
    defaultFontFamily := "Times New Roman",
    defaultFontSize := Whole(12),
    serifFamily := "Times New Roman",
    sansSerifFamily := "Arial",
    cursiveFamily := "Comic Sans MS",
    fantasyFamily := "Impact",
    monospaceFamily := "Courier New")

  /** `JsOptions::default()`; the rendering modes are usvg's defaults. */
  const OptionDefaults: RenderOptions := RenderOptions(
    path := None,
    font := FontDefaults,
    dpi := Whole(96),
    languages := ["en"],
    shapeRendering := DefaultShape,
    textRendering := DefaultText,
    imageRendering := DefaultImage,
    fitTo := Original,
    background := None)

  // ---------------------------------------------------------------------
  // Fields, named as serde's derived field identifiers name them.
  // ---------------------------------------------------------------------

  datatype FontFieldId =
    | LoadSystemFonts | FontFiles | FontDirs | DefaultFontFamily | DefaultFontSize
    | SerifFamily | SansSerifFamily | CursiveFamily | FantasyFamily | MonospaceFamily

  datatype OptionFieldId =
    | PathField | FontsField | DpiField | LanguagesField | ShapeRenderingField
    | TextRenderingField | ImageRenderingField | FitToField | BackgroundField

  /** The fields in declaration order. */
  const FontFieldOrder: seq<FontFieldId> := [
    LoadSystemFonts, FontFiles, FontDirs, DefaultFontFamily, DefaultFontSize,
    SerifFamily, SansSerifFamily, CursiveFamily, FantasyFamily, MonospaceFamily]

  const OptionFieldOrder: seq<OptionFieldId> := [
    PathField, FontsField, DpiField, LanguagesField, ShapeRenderingField,
    TextRenderingField, ImageRenderingField, FitToField, BackgroundField]

  /** The payload key of a font field (`rename_all = "camelCase"`). */
  function FontKey(id: FontFieldId): string {
    match id
    case LoadSystemFonts => "loadSystemFonts"
    case FontFiles => "fontFiles"
    case FontDirs => "fontDirs"
    case DefaultFontFamily => "defaultFontFamily"
    case DefaultFontSize => "defaultFontSize"
    case SerifFamily => "serifFamily"
    case SansSerifFamily => "sansSerifFamily"
    case CursiveFamily => "cursiveFamily"
    case FantasyFamily => "fantasyFamily"
    case MonospaceFamily => "monospaceFamily"
  }

  /** The payload key of a render-options field. */
  function OptionKey(id: OptionFieldId): string {
    match id
    case PathField => "path"
    case FontsField => "font"
    case DpiField => "dpi"
    case LanguagesField => "languages"
    case ShapeRenderingField => "shapeRendering"
    case TextRenderingField => "textRendering"
    case ImageRenderingField => "imageRendering"
    case FitToField => "fitTo"
    case BackgroundField => "background"
  }

  /** The font field a payload key names, if any. */
  function FontFieldNamed(key: string): (r: Option<FontFieldId>)
    ensures r.Some? ==> FontKey(r.value) == key
    ensures r.None? ==> forall id :: FontKey(id) != key
  {
    if key == "loadSystemFonts" then Some(LoadSystemFonts)
    else if key == "fontFiles" then Some(FontFiles)
    else if key == "fontDirs" then Some(FontDirs)
    else if key == "defaultFontFamily" then Some(DefaultFontFamily)
    else if key == "defaultFontSize" then Some(DefaultFontSize)
    else if key == "serifFamily" then Some(SerifFamily)
    else if key == "sansSerifFamily" then Some(SansSerifFamily)
    else if key == "cursiveFamily" then Some(CursiveFamily)
    else if key == "fantasyFamily" then Some(FantasyFamily)
    else if key == "monospaceFamily" then Some(MonospaceFamily)
    else None
  }

  /** The render-options field a payload key names, if any. */
  function OptionFieldNamed(key: string): (r: Option<OptionFieldId>)
    ensures r.Some? ==> OptionKey(r.value) == key
    ensures r.None? ==> forall id :: OptionKey(id) != key
  {
    if key == "path" then Some(PathField)
    else if key == "font" then Some(FontsField)
    else if key == "dpi" then Some(DpiField)
    else if key == "languages" then Some(LanguagesField)
    else if key == "shapeRendering" then Some(ShapeRenderingField)
    else if key == "textRendering" then Some(TextRenderingField)
    else if key == "imageRendering" then Some(ImageRenderingField)
    else if key == "fitTo" then Some(FitToField)
    else if key == "background" then Some(BackgroundField)
    else None
  }

  /** Each field is found under its own key, so no two fields share one. */
  lemma KeysNameFields(a: FontFieldId, b: OptionFieldId)
    ensures FontFieldNamed(FontKey(a)) == Some(a)
    ensures OptionFieldNamed(OptionKey(b)) == Some(b)
  {
  }

  /** The value of one field, whichever its Rust type. */
  datatype FieldValue =
    | FlagField(flag: bool)
    | TextField(text: string)
    | TextsField(texts: seq<string>)
    | MaybeTextField(maybe: Option<string>)
    | NumberField(number: Number)
    | FontField(font: FontOptions)
    | ShapeField(shape: ShapeRendering)
    | TextModeField(textMode: TextRendering)
    | ImageField(image: ImageRendering)
    | FitField(fit: FitTo)

  /** The Rust type of a field. */
  datatype Kind = FlagKind | TextKind | TextsKind | MaybeTextKind | NumberKind | FontKind | ShapeKind | TextModeKind | ImageKind | FitKind

  function KindOf(fv: FieldValue): Kind {
    match fv
    case FlagField(_) => FlagKind
    case TextField(_) => TextKind
    case TextsField(_) => TextsKind
    case MaybeTextField(_) => MaybeTextKind
    case NumberField(_) => NumberKind
    case FontField(_) => FontKind
    case ShapeField(_) => ShapeKind
    case TextModeField(_) => TextModeKind
    case ImageField(_) => ImageKind
    case FitField(_) => FitKind
  }

  function FontFieldOf(f: FontOptions, id: FontFieldId): FieldValue {
    match id
    case LoadSystemFonts => FlagField(f.loadSystemFonts)
    case FontFiles => TextsField(f.fontFiles)
    case FontDirs => TextsField(f.fontDirs)
    case DefaultFontFamily => TextField(f.defaultFontFamily)
    case DefaultFontSize => NumberField(f.defaultFontSize)
    case SerifFamily => TextField(f.serifFamily)
    case SansSerifFamily => TextField(f.sansSerifFamily)
    case CursiveFamily => TextField(f.cursiveFamily)
    case FantasyFamily => TextField(f.fantasyFamily)
    case MonospaceFamily => TextField(f.monospaceFamily)
  }

  function OptionFieldOf(o: RenderOptions, id: OptionFieldId): FieldValue {
    match id
    case PathField => MaybeTextField(o.path)
    case FontsField => FontField(o.font)
    case DpiField => NumberField(o.dpi)
    case LanguagesField => TextsField(o.languages)
    case ShapeRenderingField => ShapeField(o.shapeRendering)
    case TextRenderingField => TextModeField(o.textRendering)
    case ImageRenderingField => ImageField(o.imageRendering)
    case FitToField => FitField(o.fitTo)
    case BackgroundField => MaybeTextField(o.background)
  }

  /** The Rust type of each font field. */
  function FontFieldKind(id: FontFieldId): (k: Kind)
    ensures k != FontKind
    ensures forall f :: KindOf(FontFieldOf(f, id)) == k
  {
    match id
    case LoadSystemFonts => FlagKind
    case FontFiles | FontDirs => TextsKind
    case DefaultFontSize => NumberKind
    case _ => TextKind
  }

  /** The Rust type of each render-options field. */
  function OptionFieldKind(id: OptionFieldId): (k: Kind)
    ensures k == FontKind <==> id == FontsField
    ensures forall o :: KindOf(OptionFieldOf(o, id)) == k
  {
    match id
    case PathField | BackgroundField => MaybeTextKind
    case FontsField => FontKind
    case DpiField => NumberKind
    case LanguagesField => TextsKind
    case ShapeRenderingField => ShapeKind
    case TextRenderingField => TextModeKind
    case ImageRenderingField => ImageKind
    case FitToField => FitKind
  }

  // ---------------------------------------------------------------------
  // Decoding.
  // ---------------------------------------------------------------------

  /** Decodes a payload value as a field of the given type (any type but
      the nested font options). */
  function DecodeLeaf(kind: Kind, v: Value): (r: Result<FieldValue, DecodeError>)
    requires kind != FontKind
    ensures r.Success? ==> KindOf(r.value) == kind
    ensures r.Success? && kind != FitKind ==> v == EncodeLeaf(r.value)
  {
    match kind
    case FlagKind => var b :- DecodeBool(v); Success(FlagField(b))
    case TextKind => var s :- DecodeString(v); Success(TextField(s))
    case TextsKind => var ss :- DecodeStrings(v); Success(TextsField(ss))
    case MaybeTextKind => var ms :- DecodeOptionalString(v); Success(MaybeTextField(ms))
    case NumberKind => var n :- DecodeFloat(v); Success(NumberField(n))
    case ShapeKind => var s :- DecodeShape(v); Success(ShapeField(s))
    case TextModeKind => var t :- DecodeText(v); Success(TextModeField(t))
    case ImageKind => var i :- DecodeImage(v); Success(ImageField(i))
    case FitKind => var f :- DecodeFitTo(v); Success(FitField(f))
  }

  /** Decodes the value of one font-options key; an unknown key is an error
      that names it. */
  function DecodeFontField(key: string, v: Value): (r: Result<FieldValue, DecodeError>)
    ensures FontFieldNamed(key).None? ==> r == Failure(UnknownField(key))
    ensures r.Success? ==> FontFieldNamed(key).Some? && KindOf(r.value) == FontFieldKind(FontFieldNamed(key).value)
  {
    match FontFieldNamed(key)
    case None => Failure(UnknownField(key))
    case Some(id) => DecodeLeaf(FontFieldKind(id), v)
  }

  /** The field under `key` when the payload supplied it, `d` otherwise. */
  function Slot(m: map<string, FieldValue>, key: string, d: FieldValue): (r: FieldValue)
    ensures KindOf(r) == KindOf(d)
  {
    if key in m && KindOf(m[key]) == KindOf(d) then m[key] else d
  }

  /** The font options built from the supplied fields, every missing field
      taking its default (the container-level `default`). */
  function AssembleFont(m: map<string, FieldValue>): FontOptions {
    var d := FontDefaults;
    FontOptions(
      loadSystemFonts := Slot(m, "loadSystemFonts", FlagField(d.loadSystemFonts)).flag,
      fontFiles := Slot(m, "fontFiles", TextsField(d.fontFiles)).texts,
      fontDirs := Slot(m, "fontDirs", TextsField(d.fontDirs)).texts,
      defaultFontFamily := Slot(m, "defaultFontFamily", TextField(d.defaultFontFamily)).text,
      defaultFontSize := Slot(m, "defaultFontSize", NumberField(d.defaultFontSize)).number,
      serifFamily := Slot(m, "serifFamily", TextField(d.serifFamily)).text,
      sansSerifFamily := Slot(m, "sansSerifFamily", TextField(d.sansSerifFamily)).text,
      cursiveFamily := Slot(m, "cursiveFamily", TextField(d.cursiveFamily)).text,
      fantasyFamily := Slot(m, "fantasyFamily", TextField(d.fantasyFamily)).text,
      monospaceFamily := Slot(m, "monospaceFamily", TextField(d.monospaceFamily)).text)
  }

  lemma AssembleFontField(m: map<string, FieldValue>, id: FontFieldId)
    ensures FontFieldOf(AssembleFont(m), id) == Slot(m, FontKey(id), FontFieldOf(FontDefaults, id))
  {
  }

  /** Each entry of a font-options object paired with its decoding. */
  function FontItems(es: seq<(string, Value)>): (items: seq<(string, Result<FieldValue, DecodeError>)>)
    ensures |items| == |es|
    ensures forall i :: 0 <= i < |es| ==> items[i] == (es[i].0, DecodeFontField(es[i].0, es[i].1))
  {
    seq(|es|, i requires 0 <= i < |es| => (es[i].0, DecodeFontField(es[i].0, es[i].1)))
  }

  /** Deserializes `JsFontOptions`: an object whose entries are collected,
      then completed from the defaults. */
  function DecodeFont(v: Value): (r: Result<FontOptions, DecodeError>)
    ensures !v.Obj? ==> r.Failure?
  {
    match v
    case Obj(es) =>
      var m :- Collect(FontItems(es), map[]);
      Success(AssembleFont(m))
    case _ => Failure(InvalidType(UnexpectedOf(v), "struct JsFontOptions"))
  }

  /** Decodes the value of one render-options key; an unknown key is an
      error that names it. */
  function DecodeOptionField(key: string, v: Value): (r: Result<FieldValue, DecodeError>)
    ensures OptionFieldNamed(key).None? ==> r == Failure(UnknownField(key))
    ensures r.Success? ==> OptionFieldNamed(key).Some? && KindOf(r.value) == OptionFieldKind(OptionFieldNamed(key).value)
  {
    match OptionFieldNamed(key)
    case None => Failure(UnknownField(key))
    case Some(id) => DecodeFieldOf(id, v)
  }

  /** The value of a known options field, decoded by the field's kind. */
  function DecodeFieldOf(id: OptionFieldId, v: Value): (r: Result<FieldValue, DecodeError>)
    ensures r.Success? ==> KindOf(r.value) == OptionFieldKind(id)
  {
    match id
    case FontsField => DecodeFontValue(v)
    case PathField => DecodeLeaf(MaybeTextKind, v)
    case BackgroundField => DecodeLeaf(MaybeTextKind, v)
    case DpiField => DecodeLeaf(NumberKind, v)
    case LanguagesField => DecodeLeaf(TextsKind, v)
    case ShapeRenderingField => DecodeLeaf(ShapeKind, v)
    case TextRenderingField => DecodeLeaf(TextModeKind, v)
    case ImageRenderingField => DecodeLeaf(ImageKind, v)
    case FitToField => DecodeLeaf(FitKind, v)
  }

  /** The `font` field: a nested font-options object. */
  function DecodeFontValue(v: Value): (r: Result<FieldValue, DecodeError>)
    ensures r.Success? ==> KindOf(r.value) == FontKind
    ensures r.Success? ==> r.value.FontField? && DecodeFont(v) == Success(r.value.font)
    ensures r.Failure? ==> DecodeFont(v).Failure?
  {
    AsFontField(DecodeFont(v))
  }

  function AsFontField(d: Result<FontOptions, DecodeError>): (r: Result<FieldValue, DecodeError>)
    ensures r.Success? ==> KindOf(r.value) == FontKind
    ensures r.Success? ==> r.value.FontField? && d == Success(r.value.font)
    ensures r.Failure? ==> d.Failure?
  {
    match d
    case Success(f) => Success(FontField(f))
    case Failure(e) => Failure(e)
  }

  /** The render options built from the supplied fields. */
  function AssembleOptions(m: map<string, FieldValue>): RenderOptions {
    var d := OptionDefaults;
    RenderOptions(
      path := Slot(m, "path", MaybeTextField(d.path)).maybe,
      font := Slot(m, "font", FontField(d.font)).font,
      dpi := Slot(m, "dpi", NumberField(d.dpi)).number,
      languages := Slot(m, "languages", TextsField(d.languages)).texts,
      shapeRendering := Slot(m, "shapeRendering", ShapeField(d.shapeRendering)).shape,
      textRendering := Slot(m, "textRendering", TextModeField(d.textRendering)).textMode,
      imageRendering := Slot(m, "imageRendering", ImageField(d.imageRendering)).image,
      fitTo := Slot(m, "fitTo", FitField(d.fitTo)).fit,
      background := Slot(m, "background", MaybeTextField(d.background)).maybe)
  }

  lemma AssembleOptionsField(m: map<string, FieldValue>, id: OptionFieldId)
    ensures OptionFieldOf(AssembleOptions(m), id) == Slot(m, OptionKey(id), OptionFieldOf(OptionDefaults, id))
  {
  }

  /** Each entry of a render-options object paired with its decoding. */
  function OptionItems(es: seq<(string, Value)>): (items: seq<(string, Result<FieldValue, DecodeError>)>)
    ensures |items| == |es|
    ensures forall i :: 0 <= i < |es| ==> items[i] == (es[i].0, DecodeOptionField(es[i].0, es[i].1))
  {
    seq(|es|, i requires 0 <= i < |es| => (es[i].0, DecodeOptionField(es[i].0, es[i].1)))
  }

  /** Deserializes `JsOptions`. */
  function DecodeOptions(v: Value): (r: Result<RenderOptions, DecodeError>)
    ensures !v.Obj? ==> r.Failure?
  {
    match v
    case Obj(es) =>
      var m :- Collect(OptionItems(es), map[]);
      Success(AssembleOptions(m))
    case _ => Failure(InvalidType(UnexpectedOf(v), "struct JsOptions"))
  }

  /** The options argument of `render`, read as an optional value: when it
      is not passed, or is `null` or `undefined`, the defaults apply;
      otherwise it must decode. */
  function DecodeOptionsArgument(arg: Option<Value>): (r: Result<RenderOptions, DecodeError>)
    ensures arg.None? || arg == Some(Null) ==> r == Success(OptionDefaults)
    ensures arg.Some? && !arg.value.Null? && !arg.value.Obj? ==> r.Failure?
  {
    match arg
    case None => Success(OptionDefaults)
    case Some(Null) => Success(OptionDefaults)
    case Some(v) => DecodeOptions(v)
  }

  // ---------------------------------------------------------------------
  // Encoding: a payload that spells out every field, in declaration order.
  // ---------------------------------------------------------------------

  /** The payload value a field's value is written as. */
  function EncodeLeaf(fv: FieldValue): Value
    requires !fv.FontField?
  {
    match fv
    case FlagField(b) => Bool(b)
    case TextField(s) => Str(s)
    case TextsField(ss) => EncodeStrings(ss)
    case MaybeTextField(ms) => if ms.Some? then Str(ms.value) else Null
    case NumberField(n) => Num(n)
    case ShapeField(s) => Num(Whole(ShapeCode(s)))
    case TextModeField(t) => Num(Whole(TextCode(t)))
    case ImageField(i) => Num(Whole(ImageCode(i)))
    case FitField(f) => EncodeFitTo(f)
  }

  function EncodeFont(f: FontOptions): (v: Value)
    ensures v.Obj? && |v.entries| == |FontFieldOrder|
  {
    Obj(seq(|FontFieldOrder|, i requires 0 <= i < |FontFieldOrder| =>
      (FontKey(FontFieldOrder[i]), EncodeLeaf(FontFieldOf(f, FontFieldOrder[i])))))
  }

  function EncodeOptionField(fv: FieldValue): Value {
    if fv.FontField? then EncodeFont(fv.font) else EncodeLeaf(fv)
  }

  function EncodeOptions(o: RenderOptions): (v: Value)
    ensures v.Obj? && |v.entries| == |OptionFieldOrder|
  {
    Obj(seq(|OptionFieldOrder|, i requires 0 <= i < |OptionFieldOrder| =>
      (OptionKey(OptionFieldOrder[i]), EncodeOptionField(OptionFieldOf(o, OptionFieldOrder[i])))))
  }

  // ---------------------------------------------------------------------
  // Properties.
  // ---------------------------------------------------------------------

  lemma LeafRoundTrip(fv: FieldValue)
    requires !fv.FontField?
    ensures DecodeLeaf(KindOf(fv), EncodeLeaf(fv)) == Success(fv)
  {
    match fv
    case TextsField(ss) => StringsRoundTrip(ss);
    case ShapeField(s) => PublishedCodesRoundTrip(s, TextRendering.OptimizeSpeed, ImageRendering.OptimizeSpeed);
    case TextModeField(t) => PublishedCodesRoundTrip(ShapeRendering.OptimizeSpeed, t, ImageRendering.OptimizeSpeed);
    case ImageField(i) => PublishedCodesRoundTrip(ShapeRendering.OptimizeSpeed, TextRendering.OptimizeSpeed, i);
    case FitField(f) => FitToRoundTrip(f);
    case _ =>
  }

  /** Where each field stands in the declaration order. */
  function FontFieldIndex(id: FontFieldId): (i: nat)
    ensures i < |FontFieldOrder| && FontFieldOrder[i] == id
  {
    match id
    case LoadSystemFonts => 0
    case FontFiles => 1
    case FontDirs => 2
    case DefaultFontFamily => 3
    case DefaultFontSize => 4
    case SerifFamily => 5
    case SansSerifFamily => 6
    case CursiveFamily => 7
    case FantasyFamily => 8
    case MonospaceFamily => 9
  }

  function OptionFieldIndex(id: OptionFieldId): (i: nat)
    ensures i < |OptionFieldOrder| && OptionFieldOrder[i] == id
  {
    match id
    case PathField => 0
    case FontsField => 1
    case DpiField => 2
    case LanguagesField => 3
    case ShapeRenderingField => 4
    case TextRenderingField => 5
    case ImageRenderingField => 6
    case FitToField => 7
    case BackgroundField => 8
  }

  /** No field appears twice in either declaration order. */
  lemma FieldOrdersDistinct(i: nat, j: nat)
    requires i < j
    ensures j < |FontFieldOrder| ==> FontFieldOrder[i] != FontFieldOrder[j]
    ensures j < |OptionFieldOrder| ==> OptionFieldOrder[i] != OptionFieldOrder[j]
  {
    if j < |FontFieldOrder| {
      assert FontFieldIndex(FontFieldOrder[i]) == i;
      assert FontFieldIndex(FontFieldOrder[j]) == j;
    }
    if j < |OptionFieldOrder| {
      assert OptionFieldIndex(OptionFieldOrder[i]) == i;
      assert OptionFieldIndex(OptionFieldOrder[j]) == j;
    }
  }

  /** Font options with equal fields are equal. */
  lemma FontExtensional(a: FontOptions, b: FontOptions)
    requires forall id :: FontFieldOf(a, id) == FontFieldOf(b, id)
    ensures a == b
  {
    assert FontFieldOf(a, LoadSystemFonts) == FontFieldOf(b, LoadSystemFonts);
    assert FontFieldOf(a, FontFiles) == FontFieldOf(b, FontFiles);
    assert FontFieldOf(a, FontDirs) == FontFieldOf(b, FontDirs);
    assert FontFieldOf(a, DefaultFontFamily) == FontFieldOf(b, DefaultFontFamily);
    assert FontFieldOf(a, DefaultFontSize) == FontFieldOf(b, DefaultFontSize);
    assert FontFieldOf(a, SerifFamily) == FontFieldOf(b, SerifFamily);
    assert FontFieldOf(a, SansSerifFamily) == FontFieldOf(b, SansSerifFamily);
    assert FontFieldOf(a, CursiveFamily) == FontFieldOf(b, CursiveFamily);
    assert FontFieldOf(a, FantasyFamily) == FontFieldOf(b, FantasyFamily);
    assert FontFieldOf(a, MonospaceFamily) == FontFieldOf(b, MonospaceFamily);
  }

  /** Render options with equal fields are equal. */
  lemma OptionsExtensional(a: RenderOptions, b: RenderOptions)
    requires forall id :: OptionFieldOf(a, id) == OptionFieldOf(b, id)
    ensures a == b
  {
    assert OptionFieldOf(a, PathField) == OptionFieldOf(b, PathField);
    assert OptionFieldOf(a, FontsField) == OptionFieldOf(b, FontsField);
    assert OptionFieldOf(a, DpiField) == OptionFieldOf(b, DpiField);
    assert OptionFieldOf(a, LanguagesField) == OptionFieldOf(b, LanguagesField);
    assert OptionFieldOf(a, ShapeRenderingField) == OptionFieldOf(b, ShapeRenderingField);
    assert OptionFieldOf(a, TextRenderingField) == OptionFieldOf(b, TextRenderingField);
    assert OptionFieldOf(a, ImageRenderingField) == OptionFieldOf(b, ImageRenderingField);
    assert OptionFieldOf(a, FitToField) == OptionFieldOf(b, FitToField);
    assert OptionFieldOf(a, BackgroundField) == OptionFieldOf(b, BackgroundField);
  }

  /** A font-options object is accepted exactly when no key repeats, every
      key names a field and every value has its field's type; so any
      unknown key is rejected. */
  lemma FontPayloadAccepted(es: seq<(string, Value)>)
    ensures DecodeFont(Obj(es)).Success? <==>
              DistinctKeys(es) &&
              forall i :: 0 <= i < |es| ==>
                FontFieldNamed(es[i].0).Some? && DecodeLeaf(FontFieldKind(FontFieldNamed(es[i].0).value), es[i].1).Success?
    ensures (exists i :: 0 <= i < |es| && FontFieldNamed(es[i].0).None?) ==> DecodeFont(Obj(es)).Failure?
  {
    SameKeys(es, FontItems(es));
  }

  /** A render-options object is accepted exactly when no key repeats,
      every key names a field and every value decodes as that field. */
  lemma PayloadAccepted(es: seq<(string, Value)>)
    ensures DecodeOptions(Obj(es)).Success? <==>
              DistinctKeys(es) &&
              forall i :: 0 <= i < |es| ==> OptionFieldNamed(es[i].0).Some? && DecodeOptionField(es[i].0, es[i].1).Success?
    ensures (exists i :: 0 <= i < |es| && OptionFieldNamed(es[i].0).None?) ==> DecodeOptions(Obj(es)).Failure?
  {
    SameKeys(es, OptionItems(es));
  }

  /** A font payload sets exactly the fields it names: each supplied field
      holds the decoded value and every other field its default. */
  lemma FontPayloadOverridesDefaults(es: seq<(string, Value)>, f: FontOptions)
    requires DecodeFont(Obj(es)) == Success(f)
    ensures forall id :: FontKey(id) !in KeysOf(es) ==> FontFieldOf(f, id) == FontFieldOf(FontDefaults, id)
    ensures forall i :: 0 <= i < |es| ==>
              FontFieldNamed(es[i].0).Some? && FontFieldOf(f, FontFieldNamed(es[i].0).value) == DecodeFontField(es[i].0, es[i].1).value
  {
    var items := FontItems(es);
    SameKeys(es, items);
    var m := Collect(items, map[]).value;
    assert f == AssembleFont(m);
    forall id | FontKey(id) !in KeysOf(es)
      ensures FontFieldOf(f, id) == FontFieldOf(FontDefaults, id)
    {
      AssembleFontField(m, id);
    }
    forall i | 0 <= i < |es|
      ensures FontFieldNamed(es[i].0).Some? && FontFieldOf(f, FontFieldNamed(es[i].0).value) == DecodeFontField(es[i].0, es[i].1).value
    {
      var id := FontFieldNamed(es[i].0).value;
      AssembleFontField(m, id);
      assert m[items[i].0] == items[i].1.value;
    }
  }

  /** A render-options payload sets exactly the fields it names; together
      with the font lemma this holds inside `font` as well. */
  lemma PayloadOverridesDefaults(es: seq<(string, Value)>, o: RenderOptions)
    requires DecodeOptions(Obj(es)) == Success(o)
    ensures forall id :: OptionKey(id) !in KeysOf(es) ==> OptionFieldOf(o, id) == OptionFieldOf(OptionDefaults, id)
    ensures forall i :: 0 <= i < |es| ==>
              OptionFieldNamed(es[i].0).Some? && OptionFieldOf(o, OptionFieldNamed(es[i].0).value) == DecodeOptionField(es[i].0, es[i].1).value
  {
    var items := OptionItems(es);
    SameKeys(es, items);
    var m := Collect(items, map[]).value;
    assert o == AssembleOptions(m);
    forall id | OptionKey(id) !in KeysOf(es)
      ensures OptionFieldOf(o, id) == OptionFieldOf(OptionDefaults, id)
    {
      AssembleOptionsField(m, id);
    }
    forall i | 0 <= i < |es|
      ensures OptionFieldNamed(es[i].0).Some? && OptionFieldOf(o, OptionFieldNamed(es[i].0).value) == DecodeOptionField(es[i].0, es[i].1).value
    {
      var id := OptionFieldNamed(es[i].0).value;
      AssembleOptionsField(m, id);
      assert m[items[i].0] == items[i].1.value;
    }
  }

  /** The encoded font entries: one per field, in order, each decoding
      back to its field's value. */
  lemma FontEncodingEntries(f: FontOptions)
    ensures forall i :: 0 <= i < |FontFieldOrder| ==>
              EncodeFont(f).entries[i].0 == FontKey(FontFieldOrder[i]) &&
              DecodeFontField(EncodeFont(f).entries[i].0, EncodeFont(f).entries[i].1) == Success(FontFieldOf(f, FontFieldOrder[i]))
    ensures DistinctKeys(EncodeFont(f).entries)
  {
    var es := EncodeFont(f).entries;
    forall i | 0 <= i < |FontFieldOrder|
      ensures DecodeFontField(es[i].0, es[i].1) == Success(FontFieldOf(f, FontFieldOrder[i]))
    {
      KeysNameFields(FontFieldOrder[i], PathField);
      LeafRoundTrip(FontFieldOf(f, FontFieldOrder[i]));
    }
    forall i, j | 0 <= i < j < |es| ensures es[i].0 != es[j].0 {
      KeysNameFields(FontFieldOrder[i], PathField);
      KeysNameFields(FontFieldOrder[j], PathField);
      FieldOrdersDistinct(i, j);
    }
  }

  /** A font payload naming every field once, each decoding to the field
      of `f`, decodes to `f`. */
  lemma CompleteFontPayload(es: seq<(string, Value)>, f: FontOptions)
    requires DistinctKeys(es)
    requires forall id :: FontKey(id) in KeysOf(es)
    requires forall i :: 0 <= i < |es| ==>
               FontFieldNamed(es[i].0).Some? && DecodeFontField(es[i].0, es[i].1) == Success(FontFieldOf(f, FontFieldNamed(es[i].0).value))
    ensures DecodeFont(Obj(es)) == Success(f)
  {
    var items := FontItems(es);
    SameKeys(es, items);
    var r := Collect(items, map[]);
    assert r.Success?;
    var m := r.value;
    forall id ensures FontFieldOf(AssembleFont(m), id) == FontFieldOf(f, id) {
      assert FontKey(id) in KeysOf(es);
      var i :| 0 <= i < |es| && es[i].0 == FontKey(id);
      KeysNameFields(id, PathField);
      AssembleFontField(m, id);
      assert m[items[i].0] == items[i].1.value;
    }
    FontExtensional(AssembleFont(m), f);
  }

  /** Font options survive encoding and decoding. */
  lemma FontRoundTrip(f: FontOptions)
    ensures DecodeFont(EncodeFont(f)) == Success(f)
  {
    var es := EncodeFont(f).entries;
    FontEncodingEntries(f);
    forall id ensures FontKey(id) in KeysOf(es) {
      var i := FontFieldIndex(id);
      assert es[i].0 == FontKey(id);
    }
    forall i | 0 <= i < |es|
      ensures FontFieldNamed(es[i].0).Some? && DecodeFontField(es[i].0, es[i].1) == Success(FontFieldOf(f, FontFieldNamed(es[i].0).value))
    {
      KeysNameFields(FontFieldOrder[i], PathField);
    }
    CompleteFontPayload(es, f);
  }

  lemma OptionFieldRoundTrip(o: RenderOptions, id: OptionFieldId)
    ensures DecodeOptionField(OptionKey(id), EncodeOptionField(OptionFieldOf(o, id))) == Success(OptionFieldOf(o, id))
  {
    KeysNameFields(LoadSystemFonts, id);
    if id == FontsField {
      FontRoundTrip(o.font);
    } else {
      LeafRoundTrip(OptionFieldOf(o, id));
    }
  }

  lemma OptionsEncodingEntries(o: RenderOptions)
    ensures forall i :: 0 <= i < |OptionFieldOrder| ==>
              EncodeOptions(o).entries[i].0 == OptionKey(OptionFieldOrder[i]) &&
              DecodeOptionField(EncodeOptions(o).entries[i].0, EncodeOptions(o).entries[i].1) == Success(OptionFieldOf(o, OptionFieldOrder[i]))
    ensures DistinctKeys(EncodeOptions(o).entries)
  {
    var es := EncodeOptions(o).entries;
    forall i | 0 <= i < |OptionFieldOrder|
      ensures DecodeOptionField(es[i].0, es[i].1) == Success(OptionFieldOf(o, OptionFieldOrder[i]))
    {
      OptionFieldRoundTrip(o, OptionFieldOrder[i]);
    }
    forall i, j | 0 <= i < j < |es| ensures es[i].0 != es[j].0 {
      KeysNameFields(LoadSystemFonts, OptionFieldOrder[i]);
      KeysNameFields(LoadSystemFonts, OptionFieldOrder[j]);
      FieldOrdersDistinct(i, j);
    }
  }

  /** A render-options payload naming every field once, each decoding to
      the field of `o`, decodes to `o`. */
  lemma CompletePayload(es: seq<(string, Value)>, o: RenderOptions)
    requires DistinctKeys(es)
    requires forall id :: OptionKey(id) in KeysOf(es)
    requires forall i :: 0 <= i < |es| ==>
               OptionFieldNamed(es[i].0).Some? && DecodeOptionField(es[i].0, es[i].1) == Success(OptionFieldOf(o, OptionFieldNamed(es[i].0).value))
    ensures DecodeOptions(Obj(es)) == Success(o)
  {
    var items := OptionItems(es);
    SameKeys(es, items);
    var r := Collect(items, map[]);
    assert r.Success?;
    var m := r.value;
    forall id ensures OptionFieldOf(AssembleOptions(m), id) == OptionFieldOf(o, id) {
      assert OptionKey(id) in KeysOf(es);
      var i :| 0 <= i < |es| && es[i].0 == OptionKey(id);
      KeysNameFields(LoadSystemFonts, id);
      AssembleOptionsField(m, id);
      assert m[items[i].0] == items[i].1.value;
    }
    OptionsExtensional(AssembleOptions(m), o);
  }

  /** Render options survive encoding and decoding: a payload spelling out
      every field decodes to exactly the options it spells out. */
  lemma OptionsRoundTrip(o: RenderOptions)
    ensures DecodeOptions(EncodeOptions(o)) == Success(o)
  {
    var es := EncodeOptions(o).entries;
    OptionsEncodingEntries(o);
    forall id ensures OptionKey(id) in KeysOf(es) {
      var i := OptionFieldIndex(id);
      assert es[i].0 == OptionKey(id);
    }
    forall i | 0 <= i < |es|
      ensures OptionFieldNamed(es[i].0).Some? && DecodeOptionField(es[i].0, es[i].1) == Success(OptionFieldOf(o, OptionFieldNamed(es[i].0).value))
    {
      KeysNameFields(LoadSystemFonts, OptionFieldOrder[i]);
    }
    CompletePayload(es, o);
  }

  /** With no options argument, a `null` or `undefined` one, or an empty
      object, every field takes its documented default. */
  lemma AbsentOptionsAreDefaults()
    ensures DecodeOptionsArgument(None) == Success(OptionDefaults)
    ensures DecodeOptionsArgument(Some(Null)) == Success(OptionDefaults)
    ensures DecodeOptions(Obj([])) == Success(OptionDefaults)
    ensures DecodeFont(Obj([])) == Success(FontDefaults)
    ensures OptionDefaults.path == None && OptionDefaults.dpi == Whole(96) && OptionDefaults.languages == ["en"]
    ensures OptionDefaults.fitTo == Original && OptionDefaults.background == None
    ensures OptionDefaults.shapeRendering == ShapeRendering.GeometricPrecision
    ensures OptionDefaults.textRendering == TextRendering.OptimizeLegibility
    ensures OptionDefaults.imageRendering == ImageRendering.OptimizeQuality
    ensures OptionDefaults.font == FontDefaults
  {
    assert AssembleOptions(map[]) == OptionDefaults;
    assert AssembleFont(map[]) == FontDefaults;
  }

  /** The font defaults as documented; every family name is non-empty. */
  lemma FontDefaultsAsDocumented()
    ensures FontDefaults.loadSystemFonts && FontDefaults.fontFiles == [] && FontDefaults.fontDirs == []
    ensures FontDefaults.defaultFontFamily == "Times New Roman" && FontDefaults.defaultFontSize == Whole(12)
    ensures FontDefaults.serifFamily == "Times New Roman" && FontDefaults.sansSerifFamily == "Arial"
    ensures FontDefaults.cursiveFamily == "Comic Sans MS" && FontDefaults.fantasyFamily == "Impact"
    ensures FontDefaults.monospaceFamily == "Courier New"
    ensures forall id :: FontFieldKind(id) == TextKind ==> |FontFieldOf(FontDefaults, id).text| > 0
  {
  }

  /** Supplying a field with its default value is the same as leaving it
      out. */
  lemma DefaultValuedPayload(es: seq<(string, Value)>)
    requires DistinctKeys(es)
    requires forall i :: 0 <= i < |es| ==>
               OptionFieldNamed(es[i].0).Some? &&
               DecodeOptionField(es[i].0, es[i].1) == Success(OptionFieldOf(OptionDefaults, OptionFieldNamed(es[i].0).value))
    ensures DecodeOptions(Obj(es)) == DecodeOptions(Obj([]))
  {
    AbsentOptionsAreDefaults();
    PayloadAccepted(es);
    var o := DecodeOptions(Obj(es)).value;
    PayloadOverridesDefaults(es, o);
    forall id ensures OptionFieldOf(o, id) == OptionFieldOf(OptionDefaults, id) {
      if OptionKey(id) in KeysOf(es) {
        var i :| 0 <= i < |es| && es[i].0 == OptionKey(id);
        KeysNameFields(LoadSystemFonts, id);
      }
    }
    OptionsExtensional(o, OptionDefaults);
  }

  /** Spelling out every default is the same as leaving every field out. */
  lemma SpelledOutDefaults()
    ensures DecodeOptions(EncodeOptions(OptionDefaults)) == DecodeOptions(Obj([]))
  {
    OptionsRoundTrip(OptionDefaults);
    AbsentOptionsAreDefaults();
  }

  /** The rendering codes 2, 1 and 0 are the default modes. */
  lemma DefaultRenderingCodes()
    ensures DecodeOptions(Obj([("shapeRendering", Num(Whole(2))), ("textRendering", Num(Whole(1))), ("imageRendering", Num(Whole(0)))]))
            == DecodeOptions(Obj([]))
  {
    var es := [("shapeRendering", Num(Whole(2))), ("textRendering", Num(Whole(1))), ("imageRendering", Num(Whole(0)))];
    assert OptionFieldNamed(es[0].0) == Some(ShapeRenderingField);
    assert OptionFieldNamed(es[1].0) == Some(TextRenderingField);
    assert OptionFieldNamed(es[2].0) == Some(ImageRenderingField);
    assert DecodeOptionField(es[0].0, es[0].1) == Success(ShapeField(OptionDefaults.shapeRendering));
    assert DecodeOptionField(es[1].0, es[1].1) == Success(TextModeField(OptionDefaults.textRendering));
    assert DecodeOptionField(es[2].0, es[2].1) == Success(ImageField(OptionDefaults.imageRendering));
    assert DistinctKeys(es);
    DefaultValuedPayload(es);
  }

  /** No field's key contains an underscore, so every snake_case key of the
      TypeScript typings (`shape_rendering`, `load_system_fonts`, ...) is an
      unknown field. */
  lemma SnakeCaseKeysRejected(key: string, v: Value)
    requires '_' in key
    ensures DecodeOptionField(key, v) == Failure(UnknownField(key))
    ensures DecodeFontField(key, v) == Failure(UnknownField(key))
    ensures DecodeOptions(Obj([(key, v)])) == Failure(UnknownField(key))
    ensures DecodeFont(Obj([(key, v)])) == Failure(UnknownField(key))
  {
    UnderscoreFreeOptionKeys();
    UnderscoreFreeFontKeys();
    UnknownSingleEntry(key, v);
  }

  lemma UnderscoreFreeOptionKeys()
    ensures forall id: OptionFieldId :: '_' !in OptionKey(id)
  {
    forall id: OptionFieldId ensures '_' !in OptionKey(id) {
      UnderscoreFreeOptionKey(id);
    }
  }

  lemma UnderscoreFreeOptionKey(id: OptionFieldId)
    ensures '_' !in OptionKey(id)
  {
    match id
    case PathField =>
    case FontsField =>
    case DpiField =>
    case LanguagesField =>
    case ShapeRenderingField =>
    case TextRenderingField =>
    case ImageRenderingField =>
    case FitToField =>
    case BackgroundField =>
  }

  lemma UnderscoreFreeFontKeys()
    ensures forall id: FontFieldId :: '_' !in FontKey(id)
  {
    forall id: FontFieldId ensures '_' !in FontKey(id) {
      UnderscoreFreeFontKey(id);
    }
  }

  lemma UnderscoreFreeFontKey(id: FontFieldId)
    ensures '_' !in FontKey(id)
  {
    match id
    case LoadSystemFonts =>
    case FontFiles =>
    case FontDirs =>
    case DefaultFontFamily =>
    case DefaultFontSize =>
    case SerifFamily =>
    case SansSerifFamily =>
    case CursiveFamily =>
    case FantasyFamily =>
    case MonospaceFamily =>
  }

  /** An object whose only key names no field is rejected at both levels. */
  lemma UnknownSingleEntry(key: string, v: Value)
    requires OptionFieldNamed(key).None? && FontFieldNamed(key).None?
    ensures DecodeOptions(Obj([(key, v)])) == Failure(UnknownField(key))
    ensures DecodeFont(Obj([(key, v)])) == Failure(UnknownField(key))
  {
    assert [(key, v)][1..] == [];
  }

  /** Family names are not checked: an empty name given in the payload is
      kept, so non-empty names are a property of the defaults only. */
  lemma EmptyFamilyAccepted()
    ensures DecodeOptions(Obj([("font", Obj([("serifFamily", Str(""))]))])).Success?
    ensures DecodeOptions(Obj([("font", Obj([("serifFamily", Str(""))]))])).value.font.serifFamily == ""
  {
    var fes := [("serifFamily", Str(""))];
    SerifFamilyKept(fes, "");
    var f := DecodeFont(Obj(fes)).value;
    FontObjectKept(fes, f);
  }

  /** A font object giving only `serifFamily` keeps the name given. */
  lemma SerifFamilyKept(fes: seq<(string, Value)>, name: string)
    requires fes == [("serifFamily", Str(name))]
    ensures DecodeFont(Obj(fes)).Success? && DecodeFont(Obj(fes)).value.serifFamily == name
  {
    assert FontFieldNamed("serifFamily") == Some(SerifFamily);
    FontPayloadAccepted(fes);
    var f := DecodeFont(Obj(fes)).value;
    FontPayloadOverridesDefaults(fes, f);
    assert FontFieldOf(f, SerifFamily) == TextField(name);
  }

  /** Options giving only `font` hold the font options it decodes to. */
  lemma FontObjectKept(fes: seq<(string, Value)>, f: FontOptions)
    requires DecodeFont(Obj(fes)) == Success(f)
    ensures DecodeOptions(Obj([("font", Obj(fes))])).Success?
    ensures DecodeOptions(Obj([("font", Obj(fes))])).value.font == f
  {
    var es := [("font", Obj(fes))];
    assert OptionFieldNamed("font") == Some(FontsField);
    assert DecodeOptionField("font", Obj(fes)) == Success(FontField(f));
    PayloadAccepted(es);
    var o := DecodeOptions(Obj(es)).value;
    PayloadOverridesDefaults(es, o);
    assert OptionFieldOf(o, FontsField) == FontField(f);
  }
}

=== FILE: payload.dfy ===
/** The configuration payload as serde sees it through neon_serde, the
    errors serde's derived decoders raise, and the field collection that
    `#[serde(default, deny_unknown_fields)]` structs perform. */
module Payload {
  import opened Wrappers

  /** A JavaScript number. neon_serde hands a value equal to its own
      truncation to serde as an integer (an `i64`, saturating, so the
      infinities arrive as its extremes) and anything else (fractions, NaN)
      as an `f64`. The model keeps finite integral values as `Whole` and
      carries the rest opaquely, never computing with it. */
  datatype Number = Whole(n: int) | NonIntegral(bits: nat)

  /** A JavaScript value; `Null` stands for both `null` and `undefined`. An
      object is its own enumerable properties in enumeration order. */
  datatype Value =
    | Null
    | Bool(b: bool)
    | Num(num: Number)
    | Str(s: string)
    | Arr(items: seq<Value>)
    | Obj(entries: seq<(string, Value)>)

  /** serde's `Unexpected`: the rejected value as an `invalid type` or
      `invalid value` error quotes it (`integer `-1``, `floating point ...`,
      `a string`, ...). neon_serde hands `null`/`undefined` over as a unit,
      integral numbers as signed integers and other numbers as floats. */
  datatype Unexpected =
    | UnitValue
    | BoolValue(b: bool)
    | SignedValue(n: int)
    | FloatValue(bits: nat)
    | StrValue(s: string)
    | SeqValue
    | MapValue

  function UnexpectedOf(v: Value): Unexpected {
    match v
    case Null => UnitValue
    case Bool(b) => BoolValue(b)
    case Num(Whole(n)) => SignedValue(n)
    case Num(NonIntegral(bits)) => FloatValue(bits)
    case Str(s) => StrValue(s)
    case Arr(_) => SeqValue
    case Obj(_) => MapValue
  }

  /** The errors serde's derived deserializers report. A type or value
      mismatch carries the value found; `Custom` carries the message of a
      hand-written deserializer. */
  datatype DecodeError =
    | InvalidType(unexpected: Unexpected, expected: string)
    | InvalidValue(unexpected: Unexpected, expected: string)
    | UnknownField(field: string)
    | DuplicateField(field: string)
    | MissingField(field: string)
    | UnknownVariant(variant: string)
    | Custom(message: string)

  /** The error is a type or value mismatch that quotes `v`. */
  predicate Quotes(e: DecodeError, v: Value) {
    (e.InvalidType? || e.InvalidValue?) && e.unexpected == UnexpectedOf(v)
  }

  type U32 = n: int | 0 <= n < 0x1_0000_0000

  function DecodeBool(v: Value): (r: Result<bool, DecodeError>)
    ensures r.Success? <==> v.Bool?
    ensures r.Success? ==> v == Bool(r.value)
    ensures r.Failure? ==> Quotes(r.error, v)
  {
    if v.Bool? then Success(v.b) else Failure(InvalidType(UnexpectedOf(v), "a boolean"))
  }

  function DecodeString(v: Value): (r: Result<string, DecodeError>)
    ensures r.Success? <==> v.Str?
    ensures r.Success? ==> v == Str(r.value)
    ensures r.Failure? ==> Quotes(r.error, v)
  {
    if v.Str? then Success(v.s) else Failure(InvalidType(UnexpectedOf(v), "a string"))
  }

  /** `Option<String>`: `null`/`undefined` is `None`. */
  function DecodeOptionalString(v: Value): (r: Result<Option<string>, DecodeError>)
    ensures r.Success? <==> v.Null? || v.Str?
    ensures r == Success(None) <==> v.Null?
    ensures r.Success? && r.value.Some? ==> v == Str(r.value.value)
    ensures r.Failure? ==> Quotes(r.error, v)
  {
    match v
    case Null => Success(None)
    case Str(s) => Success(Some(s))
    case _ => Failure(InvalidType(UnexpectedOf(v), "option"))
  }

  /** `f64` and `f32` accept every number. */
  function DecodeFloat(v: Value): (r: Result<Number, DecodeError>)
    ensures r.Success? <==> v.Num?
    ensures r.Success? ==> v == Num(r.value)
    ensures r.Failure? ==> Quotes(r.error, v)
  {
    if v.Num? then Success(v.num) else Failure(InvalidType(UnexpectedOf(v), "a float"))
  }

  /** `u64`: a non-negative integral number. */
  function DecodeU64(v: Value): (r: Result<nat, DecodeError>)
    ensures r.Success? <==> v.Num? && v.num.Whole? && v.num.n >= 0
    ensures r.Success? ==> v == Num(Whole(r.value))
    ensures r.Failure? ==> Quotes(r.error, v) && (r.error.InvalidValue? <==> v.Num? && v.num.Whole?)
  {
    match v
    case Num(Whole(n)) => if n >= 0 then Success(n) else Failure(InvalidValue(SignedValue(n), "u64"))
    case _ => Failure(InvalidType(UnexpectedOf(v), "u64"))
  }

  /** `u32`: an integral number in 0 .. 2^32 - 1. */
  function DecodeU32(v: Value): (r: Result<U32, DecodeError>)
    ensures r.Success? <==> v.Num? && v.num.Whole? && 0 <= v.num.n < 0x1_0000_0000
    ensures r.Success? ==> v == Num(Whole(r.value))
    ensures r.Failure? ==> Quotes(r.error, v) && (r.error.InvalidValue? <==> v.Num? && v.num.Whole?)
  {
    match v
    case Num(Whole(n)) =>
      if 0 <= n < 0x1_0000_0000 then Success(n) else Failure(InvalidValue(SignedValue(n), "u32"))
    case _ => Failure(InvalidType(UnexpectedOf(v), "u32"))
  }

  /** `Vec<String>`: an array of strings; the first non-string element fails. */
  function DecodeStrings(v: Value): (r: Result<seq<string>, DecodeError>)
    ensures r.Success? <==> v.Arr? && forall i :: 0 <= i < |v.items| ==> v.items[i].Str?
    ensures r.Success? ==> v == EncodeStrings(r.value)
    ensures !v.Arr? ==> r.Failure? && Quotes(r.error, v)
    ensures v.Arr? && r.Failure? ==> exists i :: 0 <= i < |v.items| && Quotes(r.error, v.items[i])
  {
    if v.Arr? then DecodeStringItems(v.items) else Failure(InvalidType(UnexpectedOf(v), "a sequence"))
  }

  function DecodeStringItems(items: seq<Value>): (r: Result<seq<string>, DecodeError>)
    ensures r.Success? <==> forall i :: 0 <= i < |items| ==> items[i].Str?
    ensures r.Success? ==> |r.value| == |items|
    ensures r.Success? ==> forall i :: 0 <= i < |items| ==> items[i] == Str(r.value[i])
    ensures r.Failure? ==> exists i :: 0 <= i < |items| && Quotes(r.error, items[i])
    decreases |items|
  {
    if |items| == 0 then Success([])
    else
      match items[0]
      case Str(s) =>
        (match DecodeStringItems(items[1..])
         case Success(rest) => Success([s] + rest)
         case Failure(e) => Failure(e))
      case _ => Failure(InvalidType(UnexpectedOf(items[0]), "a string"))
  }

  function EncodeStrings(ss: seq<string>): (v: Value)
    ensures v.Arr? && |v.items| == |ss|
    ensures forall i :: 0 <= i < |ss| ==> v.items[i] == Str(ss[i])
  {
    Arr(seq(|ss|, i requires 0 <= i < |ss| => Str(ss[i])))
  }

  lemma StringsRoundTrip(ss: seq<string>)
    ensures DecodeStrings(EncodeStrings(ss)) == Success(ss)
  {
    var r := DecodeStrings(EncodeStrings(ss));
    assert r.Success?;
    assert r.value == ss;
  }

  /** The keys of an object's entries. */
  function KeysOf<T>(es: seq<(string, T)>): (ks: set<string>)
    ensures forall i :: 0 <= i < |es| ==> es[i].0 in ks
    ensures forall k :: k in ks ==> exists i :: 0 <= i < |es| && es[i].0 == k
  {
    set i | 0 <= i < |es| :: es[i].0
  }

  predicate DistinctKeys<T>(es: seq<(string, T)>) {
    forall i, j :: 0 <= i < j < |es| ==> es[i].0 != es[j].0
  }

  /** A key that the rest of the entries do not use keeps them distinct. */
  lemma DistinctCons<T>(es: seq<(string, T)>)
    requires |es| > 0 && DistinctKeys(es[1..]) && es[0].0 !in KeysOf(es[1..])
    ensures DistinctKeys(es)
  {
    forall i, j | 0 <= i < j < |es| ensures es[i].0 != es[j].0 {
      assert es[j] == es[1..][j - 1];
      if i > 0 {
        assert es[i] == es[1..][i - 1];
      }
    }
  }

  predicate AllDecoded<V>(items: seq<(string, Result<V, DecodeError>)>) {
    forall i :: 0 <= i < |items| ==> items[i].1.Success?
  }

  /** The loop of a derived struct visitor over the payload's entries, each
      paired with its key's decoding (an unknown key decodes to
      `UnknownField`). A key already collected is a `DuplicateField`, a
      failed decoding ends the loop with its error, and otherwise the value
      is recorded under its key. */
  function Collect<V>(items: seq<(string, Result<V, DecodeError>)>, acc: map<string, V>): (r: Result<map<string, V>, DecodeError>)
    ensures r.Success? <==> AllDecoded(items) && DistinctKeys(items) && KeysOf(items) !! acc.Keys
    ensures r.Success? ==> r.value.Keys == acc.Keys + KeysOf(items)
    ensures r.Success? ==> forall k :: k in acc ==> r.value[k] == acc[k]
    ensures r.Success? ==> forall i :: 0 <= i < |items| ==> r.value[items[i].0] == items[i].1.value
    ensures r.Failure? ==>
              (exists i :: 0 <= i < |items| && (r.error == DuplicateField(items[i].0) || items[i].1 == Failure(r.error)))
    decreases |items|
  {
    if |items| == 0 then Success(acc)
    else
      var key := items[0].0;
      if key in acc then Failure(DuplicateField(key))
      else
        match items[0].1
        case Failure(e) => Failure(e)
        case Success(v) =>
          var r := Collect(items[1..], acc[key := v]);
          assert KeysOf(items) == {key} + KeysOf(items[1..]);
          assert forall i :: 1 <= i < |items| ==> items[i] == items[1..][i - 1];
          if r.Success? then (DistinctCons(items); r) else r
  }

  /** Two entry lists with the same keys in the same order have the same key
      set, and one repeats a key exactly when the other does. */
  lemma SameKeys<A, B>(es: seq<(string, A)>, items: seq<(string, B)>)
    requires |es| == |items|
    requires forall i :: 0 <= i < |es| ==> es[i].0 == items[i].0
    ensures KeysOf(es) == KeysOf(items)
    ensures DistinctKeys(es) <==> DistinctKeys(items)
  {
    forall k | k in KeysOf(items) ensures k in KeysOf(es) {
      var i :| 0 <= i < |items| && items[i].0 == k;
    }
    forall k | k in KeysOf(es) ensures k in KeysOf(items) {
      var i :| 0 <= i < |es| && es[i].0 == k;
    }
  }
}

=== FILE: rendering.dfy ===
/** The three rendering-mode settings: the fixed tables that turn the
    integer codes of the payload into usvg's enumerations, the codes the
    TypeScript typings publish, and the error messages for any other code. */
module Rendering {
  import opened Wrappers
  import opened Payload
  import Strings

  datatype ShapeRendering = OptimizeSpeed | CrispEdges | GeometricPrecision
  datatype TextRendering = OptimizeSpeed | OptimizeLegibility | GeometricPrecision
  datatype ImageRendering = OptimizeQuality | OptimizeSpeed

  /** usvg's `Default` for each setting, as the option docs state it. */
  const DefaultShape: ShapeRendering := ShapeRendering.GeometricPrecision
  const DefaultText: TextRendering := TextRendering.OptimizeLegibility
  const DefaultImage: ImageRendering := ImageRendering.OptimizeQuality

  /** The `ShapeRendering` enum of the typings. */
  function ShapeCode(s: ShapeRendering): (n: nat)
    ensures n < 3
  {
    match s
    case OptimizeSpeed => 0
    case CrispEdges => 1
    case GeometricPrecision => 2
  }

  /** The `TextRendering` enum of the typings. */
  function TextCode(t: TextRendering): (n: nat)
    ensures n < 3
  {
    match t
    case OptimizeSpeed => 0
    case OptimizeLegibility => 1
    case GeometricPrecision => 2
  }

  /** The `ImageRendering` enum of the typings. */
  function ImageCode(i: ImageRendering): (n: nat)
    ensures n < 2
  {
    match i
    case OptimizeQuality => 0
    case OptimizeSpeed => 1
  }

  /** The message of a rejected code: the setting's name, the code in
      decimal, and the accepted codes. */
  function InvalidCodeMessage(setting: string, n: nat, expected: string): string {
    "Invalid " + setting + " value: " + Strings.Decimal(n) + ". Expected " + expected + "."
  }

  /** The code a rejection message for `setting` names, read back from it. */
  function CodeNamedIn(setting: string, message: string): Option<nat> {
    var prefix := "Invalid " + setting + " value: ";
    if Strings.StartsWith(message, prefix) then
      Some(Strings.DigitsValue(Strings.LeadingDigits(message[|prefix|..])))
    else None
  }

  /** A rejection message names its code: the code is read back from it. */
  lemma InvalidCodeMessageNamesCode(setting: string, n: nat, expected: string)
    ensures CodeNamedIn(setting, InvalidCodeMessage(setting, n, expected)) == Some(n)
  {
    var prefix := "Invalid " + setting + " value: ";
    var digits := Strings.Decimal(n);
    var tail := ". Expected " + expected + ".";
    var message := InvalidCodeMessage(setting, n, expected);
    assert message == prefix + (digits + tail);
    assert message[..|prefix|] == prefix;
    assert message[|prefix|..] == digits + tail;
    assert !Strings.IsDigit(tail[0]);
    Strings.LeadingDigitsOfRun(digits, tail);
    Strings.DecimalValue(n);
  }

  const ShapeSetting := "ShapeRendering"
  const TextSetting := "TextRendering"
  const ImageSetting := "ImageRendering"

  function ShapeCodeMessage(n: nat): string {
    InvalidCodeMessage(ShapeSetting, n, "0 (OptimizeSpeed), 1 (CrispEdges), or 2 (GeometricPrecision)")
  }

  function TextCodeMessage(n: nat): string {
    InvalidCodeMessage(TextSetting, n, "0 (OptimizeSpeed), 1 (OptimizeLegibility), or 2 (GeometricPrecision)")
  }

  function ImageCodeMessage(n: nat): string {
    InvalidCodeMessage(ImageSetting, n, "0 (OptimizeQuality) or 1 (OptimizeSpeed)")
  }

  /** `deserialize_shape_rendering` after the `u64` has been read. */
  function ShapeFromCode(n: nat): (r: Result<ShapeRendering, DecodeError>)
    ensures r.Success? <==> n < 3
    ensures r.Success? ==> ShapeCode(r.value) == n
    ensures r.Failure? ==> r.error.Custom? && CodeNamedIn(ShapeSetting, r.error.message) == Some(n)
  {
    if n == 0 then Success(ShapeRendering.OptimizeSpeed)
    else if n == 1 then Success(ShapeRendering.CrispEdges)
    else if n == 2 then Success(ShapeRendering.GeometricPrecision)
    else
      InvalidCodeMessageNamesCode(ShapeSetting, n, "0 (OptimizeSpeed), 1 (CrispEdges), or 2 (GeometricPrecision)");
      Failure(Custom(ShapeCodeMessage(n)))
  }

  /** `deserialize_text_rendering` after the `u64` has been read. */
  function TextFromCode(n: nat): (r: Result<TextRendering, DecodeError>)
    ensures r.Success? <==> n < 3
    ensures r.Success? ==> TextCode(r.value) == n
    ensures r.Failure? ==> r.error.Custom? && CodeNamedIn(TextSetting, r.error.message) == Some(n)
  {
    if n == 0 then Success(TextRendering.OptimizeSpeed)
    else if n == 1 then Success(TextRendering.OptimizeLegibility)
    else if n == 2 then Success(TextRendering.GeometricPrecision)
    else
      InvalidCodeMessageNamesCode(TextSetting, n, "0 (OptimizeSpeed), 1 (OptimizeLegibility), or 2 (GeometricPrecision)");
      Failure(Custom(TextCodeMessage(n)))
  }

  /** `deserialize_image_rendering` after the `u64` has been read. */
  function ImageFromCode(n: nat): (r: Result<ImageRendering, DecodeError>)
    ensures r.Success? <==> n < 2
    ensures r.Success? ==> ImageCode(r.value) == n
    ensures r.Failure? ==> r.error.Custom? && CodeNamedIn(ImageSetting, r.error.message) == Some(n)
  {
    if n == 0 then Success(ImageRendering.OptimizeQuality)
    else if n == 1 then Success(ImageRendering.OptimizeSpeed)
    else
      InvalidCodeMessageNamesCode(ImageSetting, n, "0 (OptimizeQuality) or 1 (OptimizeSpeed)");
      Failure(Custom(ImageCodeMessage(n)))
  }

  /** The codes the typings publish decode to the variants of the same name,
      and each variant has exactly one code. */
  lemma PublishedCodesRoundTrip(s: ShapeRendering, t: TextRendering, i: ImageRendering)
    ensures ShapeFromCode(ShapeCode(s)) == Success(s)
    ensures TextFromCode(TextCode(t)) == Success(t)
    ensures ImageFromCode(ImageCode(i)) == Success(i)
    ensures forall s' :: ShapeCode(s') == ShapeCode(s) ==> s' == s
    ensures forall t' :: TextCode(t') == TextCode(t) ==> t' == t
    ensures forall i' :: ImageCode(i') == ImageCode(i) ==> i' == i
  {
  }

  /** The full field decoders: a `u64` read, then the table. Every rejected
      value is named in the error: a code past the table by the custom
      message, anything else (a negative or fractional number, a non-number)
      by the `u64` read's type or value error, which quotes it. */
  function DecodeShape(v: Value): (r: Result<ShapeRendering, DecodeError>)
    ensures r.Success? ==> v == Num(Whole(ShapeCode(r.value)))
    ensures v.Num? && v.num.Whole? && 0 <= v.num.n < 3 ==> r.Success? && ShapeCode(r.value) == v.num.n
    ensures v.Num? && v.num.Whole? && v.num.n >= 3 ==>
              r.Failure? && r.error.Custom? && CodeNamedIn(ShapeSetting, r.error.message) == Some(v.num.n)
    ensures !(v.Num? && v.num.Whole? && v.num.n >= 0) ==> r.Failure? && Quotes(r.error, v)
  {
    var n :- DecodeU64(v);
    ShapeFromCode(n)
  }

  function DecodeText(v: Value): (r: Result<TextRendering, DecodeError>)
    ensures r.Success? ==> v == Num(Whole(TextCode(r.value)))
    ensures v.Num? && v.num.Whole? && 0 <= v.num.n < 3 ==> r.Success? && TextCode(r.value) == v.num.n
    ensures v.Num? && v.num.Whole? && v.num.n >= 3 ==>
              r.Failure? && r.error.Custom? && CodeNamedIn(TextSetting, r.error.message) == Some(v.num.n)
    ensures !(v.Num? && v.num.Whole? && v.num.n >= 0) ==> r.Failure? && Quotes(r.error, v)
  {
    var n :- DecodeU64(v);
    TextFromCode(n)
  }

  function DecodeImage(v: Value): (r: Result<ImageRendering, DecodeError>)
    ensures r.Success? ==> v == Num(Whole(ImageCode(r.value)))
    ensures v.Num? && v.num.Whole? && 0 <= v.num.n < 2 ==> r.Success? && ImageCode(r.value) == v.num.n
    ensures v.Num? && v.num.Whole? && v.num.n >= 2 ==>
              r.Failure? && r.error.Custom? && CodeNamedIn(ImageSetting, r.error.message) == Some(v.num.n)
    ensures !(v.Num? && v.num.Whole? && v.num.n >= 0) ==> r.Failure? && Quotes(r.error, v)
  {
    var n :- DecodeU64(v);
    ImageFromCode(n)
  }

  /** A negative code is rejected as an invalid `u64` value quoting the
      integer, and a fractional one as an invalid type quoting the float. */
  lemma NegativeOrFractionalCodeQuoted(n: int, bits: nat)
    requires n < 0
    ensures DecodeShape(Num(Whole(n))) == Failure(InvalidValue(SignedValue(n), "u64"))
    ensures DecodeText(Num(Whole(n))) == Failure(InvalidValue(SignedValue(n), "u64"))
    ensures DecodeImage(Num(Whole(n))) == Failure(InvalidValue(SignedValue(n), "u64"))
    ensures DecodeShape(Num(NonIntegral(bits))) == Failure(InvalidType(FloatValue(bits), "u64"))
    ensures DecodeText(Num(NonIntegral(bits))) == Failure(InvalidType(FloatValue(bits), "u64"))
    ensures DecodeImage(Num(NonIntegral(bits))) == Failure(InvalidType(FloatValue(bits), "u64"))
  {
  }
}

=== FILE: strings.dfy ===
/** Decimal rendering of natural numbers and the string predicates the
    install and build scripts rely on. */
module Strings {

  predicate IsDigit(c: char) {
    '0' <= c <= '9'
  }

  predicate AllDigits(s: string) {
    forall i :: 0 <= i < |s| ==> IsDigit(s[i])
  }

  /** JavaScript's `startsWith`. */
  predicate StartsWith(s: string, prefix: string) {
    |prefix| <= |s| && s[..|prefix|] == prefix
  }

  /** JavaScript's `endsWith`. */
  predicate EndsWith(s: string, suffix: string) {
    |suffix| <= |s| && s[|s| - |suffix|..] == suffix
  }

  lemma StartsWithAppend(a: string, b: string)
    ensures StartsWith(a + b, a)
  {
    assert (a + b)[..|a|] == a;
  }

  /** A common first part keeps one string a prefix of another. */
  lemma StartsWithBoth(c: string, s: string, p: string)
    requires StartsWith(s, p)
    ensures StartsWith(c + s, c + p)
  {
    assert (c + s)[..|c + p|] == c + s[..|p|];
  }

  lemma EndsWithAppend(a: string, b: string)
    ensures EndsWith(a + b, b)
  {
    assert (a + b)[|a + b| - |b|..] == b;
  }

  /** Putting text in front keeps a suffix. */
  lemma EndsWithExtend(x: string, y: string, suffix: string)
    requires EndsWith(y, suffix)
    ensures EndsWith(x + y, suffix)
  {
    assert (x + y)[|x + y| - |suffix|..] == y[|y| - |suffix|..];
  }

  function DigitChar(d: nat): (c: char)
    requires d < 10
    ensures IsDigit(c) && c as int - '0' as int == d
  {
    ['0', '1', '2', '3', '4', '5', '6', '7', '8', '9'][d]
  }

  /** The decimal text of `n`, as Rust's `Display` for `u64` writes it. */
  function Decimal(n: nat): (s: string)
    ensures |s| > 0 && AllDigits(s)
    decreases n
  {
    if n < 10 then [DigitChar(n)] else Decimal(n / 10) + [DigitChar(n % 10)]
  }

  /** The number a string of decimal digits denotes. */
  function DigitsValue(s: string): nat
    requires AllDigits(s)
    decreases |s|
  {
    if |s| == 0 then 0
    else DigitsValue(s[..|s| - 1]) * 10 + (s[|s| - 1] as int - '0' as int)
  }

  /** The longest prefix of `s` made of decimal digits. */
  function LeadingDigits(s: string): (d: string)
    ensures |d| <= |s| && d == s[..|d|]
    ensures AllDigits(d)
    ensures |d| < |s| ==> !IsDigit(s[|d|])
    decreases |s|
  {
    if |s| > 0 && IsDigit(s[0]) then [s[0]] + LeadingDigits(s[1..]) else ""
  }

  /** Reading back the decimal text of `n` gives `n`. */
  lemma {:induction false} DecimalValue(n: nat)
    ensures DigitsValue(Decimal(n)) == n
    decreases n
  {
    if n >= 10 {
      DecimalValue(n / 10);
      var s := Decimal(n);
      assert s[..|s| - 1] == Decimal(n / 10);
    }
  }

  /** A digit run followed by a non-digit is read back exactly. */
  lemma {:induction false} LeadingDigitsOfRun(d: string, tail: string)
    requires AllDigits(d)
    requires |tail| == 0 || !IsDigit(tail[0])
    ensures LeadingDigits(d + tail) == d
    decreases |d|
  {
    if |d| > 0 {
      assert (d + tail)[1..] == d[1..] + tail;
      LeadingDigitsOfRun(d[1..], tail);
      assert [d[0]] + d[1..] == d;
    } else {
      assert d + tail == tail;
    }
  }
}

=== FILE: wrappers.dfy ===
/** Option and Result, used by every decoder and helper of the model for the
    "value or error" shape that the source expresses with serde's `Result`,
    JavaScript `undefined` and thrown errors. */
module Wrappers {

  datatype Option<+T> = None | Some(value: T)

  datatype Result<+T, +E> = Success(value: T) | Failure(error: E) {

    predicate IsFailure() {
      Failure?
    }

    function PropagateFailure<U>(): Result<U, E>
      requires Failure?
    {
      Failure(error)
    }

    function Extract(): T
      requires Success?
    {
      value
    }
  }
}
